=== FILE: README.md ===
# Calculator expression evaluator in Dafny

A model of `ExpressionParser` and its linked `Stack` from `src/calculator.py`.
`process` evaluates an arithmetic string in a single right-to-left pass over its
characters. It keeps two stacks:

- integer operands;
- binary operators and `)` markers.

A cursor `ref` marks the right edge of the current digit run. At each index one
classification predicate acts:

- binary operator;
- sign;
- `(`;
- `)`;
- start of a digit run.

Precedence is settled eagerly: before a binary operator is pushed, the loop
reduces the pending operators at the head of the operator stack while they
strictly outrank it. It stops at the first operator that does not, at a `)`
marker, or at an empty stack. A `(` reduces back to its `)` marker. At the end the operator stack is drained, and the result is popped.

Input is restricted to ASCII digits and the six symbols `+ - * / ( )`
(`Lexing.ValidExpression`).

## Modules

| module | contents |
|---|---|
| `Wrappers` | `Option` and a failure-compatible `Result` |
| `Stacks` | `Stack<T>` as a sequence whose last element is the head; `Push`, `Peek`, `Pop` |
| `Lexing` | The character classes, the priority table and the per-index predicates `IsOperator`, `IsSign`, `IsLeftBracket`, `IsRightBracket`, `CanTrimNum` and `IsSymbol`. Also `NextSymbol` (what `ref` means) and the decimal value of a digit run. |
| `Arithmetic` | The truncating quotient `Quot`, characterised independently by `IsTruncatedQuotient` |
| `Reduction` | The parser state, `_calculate` (`Calculate`) and `_operate` (`Operate`). Also the three reduction loops as functions: `ReduceHigher`, `Unwind` and `Drain`. |
| `Parser` | The functional model `Step` / `Scan` / `Run` / `Evaluate`, and the imperative `Process` with its loops, proved equal to `Run` |
| `Traces` | Concrete evaluations, proved index by index |
| `Failures` | Error exits for whole classes of inputs |
| `Chains`, `Spelling`, `Precedence` | The correctness theorem for sums of products of numerals, stated against an independent left-to-right, precedence-respecting evaluator |

`Run(e, st)` starts from the parser's current stacks. It returns the result together with the stacks left behind, because the stacks belong to the parser instance (src/calculator.py:74-76). `Evaluate(e)` is `Run` from empty stacks, i.e. a freshly constructed parser.

### Behaviour worth knowing

- **Adjacent groups are not multiplied.** The `(` branch only discards the `)` marker. So `(2)(3)` answers 2, and 3 stays on the instance's operand stack (`Traces.AdjacentGroupsLeaveOperand`). A later call on the same parser sees that operand (`Traces.LeftoverAnsweredNext`).
- **`_calculate` has no unsupported-operator exit.** Every token other than `+ - *` takes the division path. An unmatched `)` marker therefore divides: `6)3` gives 2 (`Traces.StrayRightBracketDivides`).
- **Unmatched brackets.** Because of the previous point, an unmatched `)` does not always fail. On a fresh parser, an unmatched `(` always fails (`Failures.UnmatchedLeftBracketFails`); `(` alone fails with a missing left operand.
- **Stacks are not fresh per call.** They live on the parser instance. `Run` takes them as a parameter and returns them.
- **A sign after `/` does not negate the divisor.** The scan pushes `-1` and `*` before it reaches the dividend, so they sit below it on the stacks. The drain then divides the dividend by -1 and multiplies the result by the divisor: `8/-2` is `(8 / -1) * 2` = -16 (`Traces.SignAfterDivision`).

## Model

| member | source | states |
|---|---|---|
| Stacks.Push | src/calculator.py:29-32 | The pushed element becomes the head, and everything below is kept |
| Stacks.Pop | src/calculator.py:41-46 | Answers None exactly on an empty stack, and then leaves it unchanged. Otherwise pushing the answer back restores the stack. |
| Stacks.Peek | src/calculator.py:35-38 | Answers what `pop` would answer |
| Stacks.PopAfterPush | src/calculator.py:29-46 | LIFO: a pop right after `push(x)` answers `x` and restores the previous stack; peek answers `x` |
| Stacks.EmptyPopPeek | src/calculator.py:35-46 | On an empty stack, peek and pop answer None and the stack stays empty |
| Lexing.OperatorSignExclusive | src/calculator.py:147-168 | `_is_operator` and `_is_sign` are never both true at one index. `_is_operator` is false at the first and last index, and `_is_sign` is false at the last index. |
| Parser.TrailingOperatorSkipped | src/calculator.py:81-113 | An operator at the last index is neither operator nor sign, so the step at the last index leaves the stacks unchanged |
| Lexing.IsDigit | src/calculator.py:176-179 | Definition, no contract: `str.isdecimal` on one character, restricted to ASCII `0`-`9` |
| Lexing.IsOperatorChar | src/calculator.py:66 | Definition, no contract: membership in `_OPERATORS`, the four binary operators |
| Lexing.IsSymbolChar | src/calculator.py:56-65 | Definition, no contract: membership in `_SYMBOLS`, the four operators and both brackets |
| Stacks.EmptyStack | src/calculator.py:25-26 | Definition, no contract: `Stack()` starts with no head, i.e. empty |
| Lexing.Priority | src/calculator.py:67-72 | Definition, no contract: `+` and `-` have priority 1, `*` and `/` have 10 |
| Lexing.IsOperator | src/calculator.py:147-153 | Definition, no contract: `_is_operator`; its properties are stated by `Lexing.OperatorSignExclusive` |
| Lexing.IsSign | src/calculator.py:155-168 | Definition, no contract: `_is_sign`; its properties are stated by `Lexing.OperatorSignExclusive` |
| Lexing.IsLeftBracket | src/calculator.py:170-171 | Definition, no contract: `_is_left_bracket` |
| Lexing.IsRightBracket | src/calculator.py:173-174 | Definition, no contract: `_is_right_bracket` |
| Lexing.CanTrimNum | src/calculator.py:176-179 | Definition, no contract: `_can_trim_num`; `Lexing.DigitRun` states what the slice taken at such an index is |
| Lexing.IsSymbol | src/calculator.py:181-182 | Definition, no contract: `_is_symbol`, the test that moves `ref`; `Lexing.NextSymbol` states what `ref` then holds |
| Lexing.DigitsValue | src/calculator.py:109 | Definition, no contract: `int()` on an ASCII digit run; `Lexing.ParseShow` states that it inverts the decimal rendering |
| Parser.NumberAt | src/calculator.py:108-109 | Definition, no contract: the value pushed at a run start; `Lexing.DigitRun` states that the slice is the maximal digit run |
| Lexing.NextSymbol | src/calculator.py:79-112 | The value of the cursor `ref` before index `k`: the nearest symbol at or after `k`, or the length when there is none |
| Lexing.DigitRun | src/calculator.py:108-109 | At a run start, the slice up to `ref` is exactly the maximal digit run: non-empty, all digits, and bounded by non-digits or the ends |
| Lexing.ParseShow | src/calculator.py:109 | Parsing the decimal rendering of `n` with `int` gives `n` back |
| Arithmetic.Quot | src/calculator.py:145 | `int(a / b)`: the quotient truncated toward zero. Its product with `b` lies between 0 and `a`, and the remainder is smaller than `b` in magnitude. |
| Arithmetic.QuotUnique | src/calculator.py:145 | Any truncating quotient equals `Quot`, so the characterisation pins down the value |
| Arithmetic.QuotTruncates | src/calculator.py:145 | Truncation, not flooring: -7/2 is -3, 7/-2 is -3, 7/2 is 3, -7/-2 is 3 |
| Reduction.Initial | src/calculator.py:74-76 | Definition, no contract: a freshly constructed parser has both stacks empty |
| Reduction.Calculate | src/calculator.py:136-145 | `+`, `-` and `*` give `left op right`. Any other token divides: it fails exactly when the right operand is 0, and otherwise gives a truncating quotient. |
| Reduction.Operate | src/calculator.py:123-134 | Fails with a missing left operand, right operand or operator, in that order. Otherwise it combines head (left) and second (right) operand with the head operator. The operand stack shrinks by one and the operator stack by one; the operator stack stays well formed. |
| Reduction.ReduceHigher | src/calculator.py:84-90 | On success, no pending operator outranks `op`. Every operator removed is a binary operator of strictly higher priority than `op`, taken from above the topmost `)` marker. A `*` or `/` never reduces anything. |
| Reduction.ReduceHigherStops | src/calculator.py:84-90 | The comparison is strict: when the head is a `)` marker, an operator of equal or lower priority, or absent, nothing is reduced |
| Reduction.Unwind | src/calculator.py:100-101 | On success, the head is a `)` marker and only non-marker operators were removed. It always fails when no marker is on the stack. |
| Reduction.Drain | src/calculator.py:115-116 | On success, the operator stack is empty and one operand was consumed per operator. It fails when there is at least one operator and the operands do not outnumber the operators. |
| Parser.Step | src/calculator.py:81-113 | One iteration of the scan keeps the operator stack holding only `+ - * /` and `)` (so the priority lookup is always defined) |
| Parser.Scan | src/calculator.py:81-113 | The iterations from the right end down to the left end keep the same operator-stack invariant |
| Parser.Run | src/calculator.py:78-121 | On success the operator stack is empty. The empty expression on a fresh parser fails with "result is None". |
| Parser.Evaluate | src/calculator.py:74-121 | Definition, no contract: `ExpressionParser().process(e)`, i.e. `Run` on a fresh parser; `Precedence.RenderedSumEvaluates` and the traces state what it computes |
| Parser.ReduceLoop | src/calculator.py:84-90 | The precedence loop as written computes `ReduceHigher` |
| Parser.UnwindLoop | src/calculator.py:100-101 | The loop at `(` as written computes `Unwind` |
| Parser.DrainLoop | src/calculator.py:115-116 | The final loop as written computes `Drain` |
| Parser.ProcessIndex | src/calculator.py:82-109 | One loop body, given the cursor invariant, computes `Step`; the slice at a run start is the digit run |
| Parser.Process | src/calculator.py:78-121 | The whole method, with its `ref` cursor, computes `Run` on the parser's stacks |
| Traces.MulBindsTighter | src/calculator.py:78-121 | `2+3*4` gives 14 |
| Traces.MulFirstThenAdd | src/calculator.py:78-121 | `2*3+4` gives 10 |
| Traces.BracketsGroup | src/calculator.py:78-121 | `(2+3)*4` gives 20 |
| Traces.SubtractionLeftToRight | src/calculator.py:78-121 | `8-3-2` gives 3: equal priorities are not reduced early |
| Traces.LeadingMinus | src/calculator.py:78-121 | `-5+3` gives -2 |
| Traces.LeadingMinusTruncates | src/calculator.py:78-121 | `-7/2` gives -3 |
| Traces.TrailingOperatorIgnored | src/calculator.py:78-121 | `2+` gives 2 |
| Traces.StrayRightBracketDivides | src/calculator.py:78-121 | `6)3` gives 2: the stray marker takes the division path |
| Traces.SignAfterDivision | src/calculator.py:78-121 | `8/-2` gives -16 |
| Traces.AdjacentGroupsLeaveOperand | src/calculator.py:78-121 | `(2)(3)` answers 2 and leaves 3 on the operand stack |
| Traces.DivisionByZeroFails | src/calculator.py:78-121 | `5/0` fails with the division-by-zero error |
| Traces.EmptyExpressionFails | src/calculator.py:115-120 | The empty string fails with "result is None" |
| Traces.LoneOperatorFails | src/calculator.py:115-120 | `+` fails with "result is None" |
| Traces.LoneLeftBracketFails | src/calculator.py:99-102 | `(` fails in `_operate` with a missing left operand |
| Traces.LeftoverAnsweredNext | src/calculator.py:74-121 | An operand left behind by a previous call is the answer to `""` on the same parser |
| Failures.NoDigitsFails | src/calculator.py:78-121 | On a fresh parser, any expression without digits fails, either with "result is None" or with a missing left operand inside `_operate` |
| Failures.StepWithoutDigits | src/calculator.py:81-113 | At a non-digit, one step on an empty operand stack pushes no operand and can only fail with a missing left operand |
| Failures.ScanWithoutDigits | src/calculator.py:81-113 | Without digits the scan never pushes an operand, and when it fails it fails with a missing left operand |
| Failures.EmptyOperandsLoops | src/calculator.py:84-116 | With an empty operand stack, each of the three `_operate` loops either reduces nothing or fails with a missing left operand |
| Failures.ScanOperatorsOnly | src/calculator.py:81-113 | When every character is an operator, no step changes the stacks |
| Failures.OperatorsOnlyNoResult | src/calculator.py:78-121 | On a fresh parser, an expression of operators alone (no digits, no brackets) fails with "result is None": no index is a binary operator or a sign |
| Failures.StepMarkers | src/calculator.py:81-106 | One step changes the number of `)` markers by +1 at `)`, by -1 at `(`, and by 0 elsewhere |
| Failures.UnmatchedLeftBracketFails | src/calculator.py:99-102 | A `(` with no more `)` than `(` to its right makes evaluation fail |
| Chains.DrainChain | src/calculator.py:115-116 | Draining stacks that hold a chain `acc op1 v1 ...` is the left fold of the chain |
| Chains.ReduceChain | src/calculator.py:84-90 | Before `+` or `-`, the loop folds the pending `*`/`/` run into one operand and stops at the first `+`/`-` |
| Chains.MulPairsScan | src/calculator.py:84-91 | `*` and `/` are only stacked: no reduction happens before them |
| Chains.AddTermScan | src/calculator.py:84-91 | Scanning one additive term folds its product and stacks the term's value with its operator |
| Spelling.ScanSpelled | src/calculator.py:81-113 | The character scan of `n0 op1 n1 ...` is the token-level scan of its (operator, value) pairs, then the push of `n0` |
| Precedence.ProductIsFold | src/calculator.py:136-145 | A product evaluated left to right is the fold of `_calculate` over its factors |
| Precedence.SumIsFold | src/calculator.py:136-145 | A sum of products is the fold of `_calculate` over the term values when every product succeeds. Otherwise it fails with division by zero. |
| Precedence.ScanRendered | src/calculator.py:81-113 | After the scan of a sum of products, the stacks hold the chain of the first product's factors and the later terms' values |
| Precedence.RenderedSumEvaluates | src/calculator.py:78-121 | On every sum of products of unsigned numerals, `process` equals the usual evaluation: `*` and `/` before `+` and `-`, equal priorities left to right, truncating division. It fails exactly when that evaluation divides by zero. |

## Left out

- `main` and `UserInput` (src/calculator.py:6-14, 185-208): terminal input, echo and clearing, which are interactive glue outside the evaluator.
- `Node` (src/calculator.py:17-21): the linked nodes are represented by a sequence. Push, peek and pop keep their LIFO meaning.
- Arithmetic.Quot: `_calculate` divides with floating point and truncates with `int`. The model uses exact truncating integer division. It does not model precision loss for operands beyond 2^53. It also does not model the `OverflowError` that Python raises when the quotient is beyond float range (for example a numeral of 309 or more digits divided by 1); the model answers the exact quotient there.
- Lexing.DigitsValue: CPython's `int()` raises `ValueError` on a digit run longer than 4300 digits (the default `int_max_str_digits` limit of Python 3.11 and later, and of the backports). The model returns the run's value for any length.
- Lexing.ValidExpression: `str.isdecimal` and `int()` accept Unicode digits, and `int()` strips whitespace. The model restricts input to ASCII digits and `+ - * / ( )`. Any other character is outside the model.
- The text of each `ValueError` is not modelled; the model's `Error` datatype names each exit.
- The stack contents left behind after an error are not modelled. On an error, `Run` answers only the error.
- The `KeyError` of the priority lookup is not modelled. It cannot happen, because the operator stack only holds `+ - * /` and `)` (`Parser.Step`).
- Precedence.RenderedSumEvaluates covers only expressions without brackets and signs. With those, the evaluator departs from the usual reading: `(2)(3)`, `6)3` and `8/-2` above. The bracketed and signed cases are covered only by the traces and the failure lemmas.

=== FILE: arithmetic.dfy ===
/**
 Integer division as the calculator performs it: `int(a / b)` truncates the
 exact quotient toward zero (Python's `int` of a float), unlike Dafny's
 Euclidean `/`.
 */
module Arithmetic {

  function Abs(x: int): nat {
    if x < 0 then -x else x
  }

  /**
   Truncating quotient, characterised without reference to how it is computed:
   `q * b` lies between 0 and `a` (same side of zero as `a`) and the remainder
   `a - q * b` is smaller than `b` in magnitude.
   */
  predicate IsTruncatedQuotient(a: int, b: int, q: int) {
    && (a >= 0 ==> 0 <= q * b <= a)
    && (a < 0 ==> a <= q * b <= 0)
    && Abs(a - q * b) < Abs(b)
  }

  function Quot(a: int, b: int): (q: int)
    requires b != 0
    ensures IsTruncatedQuotient(a, b, q)
  {
    var m := Abs(a) / Abs(b);
    DivBounds(Abs(a), Abs(b));
    MulSigns(m, Abs(b));
    if (a < 0) == (b < 0) then m else -m
  }

  lemma DivBounds(x: nat, y: nat)
    requires y > 0
    ensures 0 <= (x / y) * y <= x < (x / y) * y + y
  {
    assert x == y * (x / y) + x % y;
  }

  lemma MulSigns(m: int, y: int)
    ensures m * -y == -(m * y) && -m * y == -(m * y) && -m * -y == m * y
  {
  }

  /** The characterisation determines the quotient: `Quot` is the only truncating quotient. */
  lemma QuotUnique(a: int, b: int, q: int)
    requires b != 0
    requires IsTruncatedQuotient(a, b, q)
    ensures q == Quot(a, b)
  {
    var r := Quot(a, b);
    if q != r {
      CloseMultiples(a, b, q * b, r * b);
      MulSub(q, r, b);
      AbsMulAtLeast(q - r, b);
    }
  }

  lemma MulSub(x: int, y: int, b: int)
    ensures (x - y) * b == x * b - y * b
  {
  }

  /** Two multiples on the same side of zero as `a`, each closer to `a` than `b`, are closer to each other than `b`. */
  lemma CloseMultiples(a: int, b: int, x: int, y: int)
    requires a >= 0 ==> 0 <= x <= a && 0 <= y <= a
    requires a < 0 ==> a <= x <= 0 && a <= y <= 0
    requires Abs(a - x) < Abs(b) && Abs(a - y) < Abs(b)
    ensures Abs(x - y) < Abs(b)
  {
  }

  lemma AbsMulAtLeast(d: int, b: int)
    requires d != 0 && b != 0
    ensures Abs(d * b) >= Abs(b)
  {
    var x: int, y: int := Abs(d), Abs(b);
    assert x * y >= y by {
      assert x * y == (x - 1) * y + y;
      assert (x - 1) * y >= 0;
    }
    MulSigns(x, y);
    if d > 0 && b > 0 {
      assert d * b == x * y;
    } else if d > 0 {
      assert d * b == x * -y;
    } else if b > 0 {
      assert d * b == -x * y;
    } else {
      assert d * b == -x * -y;
    }
  }

  /** Truncation, not flooring: -7/2 is -3 (floor division would give -4). */
  lemma QuotTruncates()
    ensures Quot(-7, 2) == -3
    ensures Quot(7, -2) == -3
    ensures Quot(7, 2) == 3
    ensures Quot(-7, -2) == 3
  {
  }
}

=== FILE: chains.dfy ===
/**
 What the two stacks mean in the middle of a bracket-free evaluation. A
 pending chain `acc op1 v1 op2 v2 ...` (evaluated left to right) sits on the
 stacks with `acc` at the head of the operand stack, `v1` below it, and so on,
 and with `op1` at the head of the operator stack. Reducing the stacks is a
 left fold over the chain.
 */
module Chains {
  import opened Wrappers
  import opened Stacks
  import opened Lexing
  import opened Reduction

  predicate IsMulOp(c: char) {
    c == Times || c == Divide
  }

  predicate IsAddOp(c: char) {
    c == Plus || c == Minus
  }

  /** The left fold `((acc op1 v1) op2 v2) ...`, stopping at the first error. */
  function Fold(acc: int, chain: seq<(char, int)>): (r: Result<int, Error>)
    ensures r.Err? ==> r.error == DivisionByZero
    decreases |chain|
  {
    if |chain| == 0 then Ok(acc)
    else
      var v :- Calculate(acc, chain[0].1, chain[0].0);
      Fold(v, chain[1..])
  }

  /** Folding a concatenation folds the first part, then continues with the second. */
  lemma {:induction false} FoldAppend(acc: int, xs: seq<(char, int)>, ys: seq<(char, int)>)
    ensures Fold(acc, xs + ys) == (match Fold(acc, xs) case Ok(v) => Fold(v, ys) case Err(e) => Err(e))
    decreases |xs|
  {
    if |xs| == 0 {
      assert xs + ys == ys;
    } else {
      assert (xs + ys)[0] == xs[0];
      assert (xs + ys)[1..] == xs[1..] + ys;
      match Calculate(acc, xs[0].1, xs[0].0)
      case Ok(v) => FoldAppend(v, xs[1..], ys);
      case Err(_) =>
    }
  }

  predicate AllOperators(chain: seq<(char, int)>) {
    forall k :: 0 <= k < |chain| ==> IsOperatorChar(chain[k].0)
  }

  predicate AllMulOps(chain: seq<(char, int)>) {
    forall k :: 0 <= k < |chain| ==> IsMulOp(chain[k].0)
  }

  predicate AllAddOps(chain: seq<(char, int)>) {
    forall k :: 0 <= k < |chain| ==> IsAddOp(chain[k].0)
  }

  /** The operands of a chain bottom to top: the first pair's operand nearest the head. */
  function StackedOperands(chain: seq<(char, int)>): seq<int> {
    seq(|chain|, i requires 0 <= i < |chain| => chain[|chain| - 1 - i].1)
  }

  function StackedOperators(chain: seq<(char, int)>): seq<char> {
    seq(|chain|, i requires 0 <= i < |chain| => chain[|chain| - 1 - i].0)
  }

  /** The stacks holding a chain whose leading operand has not been pushed yet. */
  function Pending(chain: seq<(char, int)>): State {
    State(Stack(StackedOperands(chain)), Stack(StackedOperators(chain)))
  }

  /** The stacks holding the whole chain `acc op1 v1 ...`. */
  function Holding(acc: int, chain: seq<(char, int)>): State {
    State(Stack(StackedOperands(chain) + [acc]), Stack(StackedOperators(chain)))
  }

  lemma ChainWellFormed(acc: int, chain: seq<(char, int)>)
    requires AllOperators(chain)
    ensures OperatorsWellFormed(Pending(chain)) && OperatorsWellFormed(Holding(acc, chain))
  {
    assert forall k :: 0 <= k < |chain| ==> StackedOperators(chain)[k] == chain[|chain| - 1 - k].0;
  }

  /** Pushing an operand and then an operator extends the pending chain at its front. */
  lemma PushPair(chain: seq<(char, int)>, op: char, v: int)
    ensures Pending([(op, v)] + chain) == State(Stack(StackedOperands(chain) + [v]), Stack(StackedOperators(chain) + [op]))
  {
    assert StackedOperands([(op, v)] + chain) == StackedOperands(chain) + [v];
    assert StackedOperators([(op, v)] + chain) == StackedOperators(chain) + [op];
  }

  /** One `_operate` on a chain combines its first two operands with its first operator. */
  lemma OperateOnChain(acc: int, chain: seq<(char, int)>)
    requires |chain| > 0
    ensures Operate(Holding(acc, chain)) ==
              (match Calculate(acc, chain[0].1, chain[0].0)
               case Ok(v) => Ok(Holding(v, chain[1..]))
               case Err(e) => Err(e))
  {
    var st := Holding(acc, chain);
    var n := |chain| + 1;
    assert st.operands.items[n - 1] == acc;
    assert st.operands.items[n - 2] == chain[0].1;
    assert st.operands.items[..n - 2] == StackedOperands(chain[1..]);
    assert st.operators.items[|chain| - 1] == chain[0].0;
    assert st.operators.items[..|chain| - 1] == StackedOperators(chain[1..]);
  }

  /** The final drain folds the whole chain, leaving its value as the only operand. */
  lemma {:induction false} DrainChain(acc: int, chain: seq<(char, int)>)
    ensures Drain(Holding(acc, chain)) ==
              (match Fold(acc, chain)
               case Ok(v) => Ok(State(Stack([v]), Stack([])))
               case Err(e) => Err(e))
    decreases |chain|
  {
    if |chain| == 0 {
      assert Holding(acc, chain) == State(Stack([acc]), Stack([]));
    } else {
      assert Peek(Holding(acc, chain).operators).Some?;
      OperateOnChain(acc, chain);
      match Calculate(acc, chain[0].1, chain[0].0)
      case Ok(v) => DrainChain(v, chain[1..]);
      case Err(_) =>
    }
  }

  /** The precedence loop for `+` or `-` stops at an additive operator or an empty stack. */
  lemma ReduceStops(acc: int, low: seq<(char, int)>, op: char)
    requires IsAddOp(op) && AllOperators(low) && AllAddOps(low)
    ensures OperatorsWellFormed(Holding(acc, low))
    ensures ReduceHigher(Holding(acc, low), op) == Ok(Holding(acc, low))
  {
    ChainWellFormed(acc, low);
    if |low| > 0 {
      assert Peek(Holding(acc, low).operators) == Some(low[0].0);
    }
  }

  /** The precedence loop for `+` or `-` reduces a leading `*` or `/` and carries on. */
  lemma ReduceFirst(acc: int, chain: seq<(char, int)>, op: char)
    requires IsAddOp(op) && AllOperators(chain) && |chain| > 0 && IsMulOp(chain[0].0)
    ensures OperatorsWellFormed(Holding(acc, chain))
    ensures var c := Calculate(acc, chain[0].1, chain[0].0);
            ReduceHigher(Holding(acc, chain), op) ==
              if c.Ok? then ReduceHigher(Holding(c.value, chain[1..]), op) else Err(c.error)
  {
    ChainWellFormed(acc, chain);
    assert Peek(Holding(acc, chain).operators) == Some(chain[0].0);
    OperateOnChain(acc, chain);
  }

  /**
   Before pushing `+` or `-`: the multiplicative prefix `high` of the chain is
   folded into one operand, and the loop stops at the first additive operator.
   */
  lemma {:induction false} ReduceChain(acc: int, high: seq<(char, int)>, low: seq<(char, int)>, op: char)
    requires IsAddOp(op)
    requires AllOperators(high) && AllMulOps(high) && AllOperators(low) && AllAddOps(low)
    ensures OperatorsWellFormed(Holding(acc, high + low))
    ensures ReduceHigher(Holding(acc, high + low), op) ==
              (match Fold(acc, high)
               case Ok(v) => Ok(Holding(v, low))
               case Err(e) => Err(e))
    decreases |high|
  {
    var chain := high + low;
    if |high| == 0 {
      assert chain == low;
      ReduceStops(acc, low, op);
    } else {
      assert chain[0] == high[0] && chain[1..] == high[1..] + low;
      assert AllOperators(chain) && AllOperators(high[1..]) && AllMulOps(high[1..]);
      ReduceFirst(acc, chain, op);
      match Calculate(acc, high[0].1, high[0].0)
      case Ok(v) => ReduceChain(v, high[1..], low, op);
      case Err(_) =>
    }
  }

  /**
   One pair `op v` of the token-level scan, taken right to left: push the
   operand, run the precedence loop for the operator, push the operator.
   */
  function PairStep(op: char, v: int, st: State): (r: Result<State, Error>)
    requires IsOperatorChar(op) && OperatorsWellFormed(st)
    ensures r.Ok? ==> OperatorsWellFormed(r.value)
  {
    var reduced :- ReduceHigher(State(Push(st.operands, v), st.operators), op);
    OperatorsPushPop(reduced, reduced.operands, op);
    Ok(State(reduced.operands, Push(reduced.operators, op)))
  }

  /** The token-level scan of a chain of pairs, last pair first. */
  function PairsScan(pairs: seq<(char, int)>, st: State): (r: Result<State, Error>)
    requires AllOperators(pairs) && OperatorsWellFormed(st)
    ensures r.Ok? ==> OperatorsWellFormed(r.value)
    decreases |pairs|
  {
    if |pairs| == 0 then Ok(st)
    else
      var k := |pairs| - 1;
      var next :- PairStep(pairs[k].0, pairs[k].1, st);
      PairsScan(pairs[..k], next)
  }

  /** Sequence identities used by the scan lemmas, kept apart from the stack facts. */
  lemma MoveLast<T>(xs: seq<T>, ys: seq<T>)
    requires |xs| > 0
    ensures xs[..|xs| - 1] + ([xs[|xs| - 1]] + ys) == xs + ys
  {
  }

  lemma DropLast<T>(xs: seq<T>, ys: seq<T>)
    requires |ys| > 0
    ensures (xs + ys)[|xs + ys| - 1] == ys[|ys| - 1]
    ensures (xs + ys)[..|xs + ys| - 1] == xs + ys[..|ys| - 1]
  {
  }

  lemma OperatorsAppend(xs: seq<(char, int)>, ys: seq<(char, int)>)
    ensures AllOperators(xs + ys) <==> AllOperators(xs) && AllOperators(ys)
  {
    var zs := xs + ys;
    assert forall k :: 0 <= k < |xs| ==> zs[k] == xs[k];
    assert forall k :: 0 <= k < |ys| ==> zs[|xs| + k] == ys[k];
  }

  /** Pairs are scanned right to left: the right part first. */
  lemma {:induction false} PairsScanAppend(xs: seq<(char, int)>, ys: seq<(char, int)>, st: State)
    requires AllOperators(xs) && AllOperators(ys) && OperatorsWellFormed(st)
    ensures AllOperators(xs + ys)
    ensures PairsScan(xs + ys, st) ==
              (match PairsScan(ys, st) case Ok(s) => PairsScan(xs, s) case Err(e) => Err(e))
    decreases |ys|
  {
    OperatorsAppend(xs, ys);
    if |ys| == 0 {
      assert xs + ys == xs;
    } else {
      var k := |ys| - 1;
      DropLast(xs, ys);
      assert AllOperators(ys[..k]);
      match PairStep(ys[k].0, ys[k].1, st)
      case Ok(next) => PairsScanAppend(xs, ys[..k], next);
      case Err(_) =>
    }
  }

  /** A `*` or `/` pair never triggers a reduction: it is only stacked. */
  lemma MulPairStep(op: char, v: int, rest: seq<(char, int)>)
    requires IsMulOp(op) && AllOperators(rest)
    ensures AllOperators([(op, v)] + rest)
    ensures OperatorsWellFormed(Pending(rest))
    ensures PairStep(op, v, Pending(rest)) == Ok(Pending([(op, v)] + rest))
  {
    OperatorsAppend([(op, v)], rest);
    ChainWellFormed(0, rest);
    PushPair(rest, op, v);
  }

  /** Dropping the last pair keeps every operator a binary operator. */
  lemma PairsPrefix(pairs: seq<(char, int)>)
    requires |pairs| > 0 && AllOperators(pairs)
    ensures AllOperators(pairs[..|pairs| - 1])
  {
    var k := |pairs| - 1;
    var init := pairs[..k];
    forall i | 0 <= i < k
      ensures IsOperatorChar(init[i].0)
    {
      assert init[i] == pairs[i];
    }
  }

  /** The scan takes the last pair first and hands the rest of the pairs that step's result. */
  lemma PairsScanUnfold(pairs: seq<(char, int)>, st: State)
    requires |pairs| > 0 && AllOperators(pairs) && OperatorsWellFormed(st)
    ensures AllOperators(pairs[..|pairs| - 1])
    ensures var k := |pairs| - 1;
            var n := PairStep(pairs[k].0, pairs[k].1, st);
            PairsScan(pairs, st) == if n.Ok? then PairsScan(pairs[..k], n.value) else Err(n.error)
  {
    PairsPrefix(pairs);
  }

  lemma MulPairLast(pairs: seq<(char, int)>, rest: seq<(char, int)>)
    requires |pairs| > 0 && AllOperators(pairs) && IsMulOp(pairs[|pairs| - 1].0) && AllOperators(rest)
    requires AllOperators(pairs[..|pairs| - 1])
    requires OperatorsWellFormed(Pending(rest)) && OperatorsWellFormed(Pending([pairs[|pairs| - 1]] + rest))
    ensures PairsScan(pairs, Pending(rest)) == PairsScan(pairs[..|pairs| - 1], Pending([pairs[|pairs| - 1]] + rest))
  {
    var k := |pairs| - 1;
    var op, v := pairs[k].0, pairs[k].1;
    assert pairs[k] == (op, v);
    MulPairStep(op, v, rest);
    PairsScanUnfold(pairs, Pending(rest));
  }

  /** Scanning a run of `*` and `/` pairs only stacks them. */
  lemma {:induction false} MulPairsScan(pairs: seq<(char, int)>, rest: seq<(char, int)>)
    requires AllOperators(pairs) && AllMulOps(pairs) && AllOperators(rest)
    ensures OperatorsWellFormed(Pending(rest))
    ensures PairsScan(pairs, Pending(rest)) == Ok(Pending(pairs + rest))
    decreases |pairs|
  {
    ChainWellFormed(0, rest);
    if |pairs| == 0 {
      assert pairs + rest == rest;
    } else {
      var k := |pairs| - 1;
      PairsPrefix(pairs);
      OperatorsAppend([pairs[k]], rest);
      ChainWellFormed(0, [pairs[k]] + rest);
      MulPairLast(pairs, rest);
      assert AllMulOps(pairs[..k]);
      MulPairsScan(pairs[..k], [pairs[k]] + rest);
      MoveLast(pairs, rest);
    }
  }

  /**
   A `+` or `-` pair folds the multiplicative run pending to its right into
   one operand before it is stacked.
   */
  lemma AddPairStep(op: char, v: int, high: seq<(char, int)>, low: seq<(char, int)>)
    requires IsAddOp(op)
    requires AllOperators(high) && AllMulOps(high) && AllOperators(low) && AllAddOps(low)
    ensures AllOperators(high + low) && OperatorsWellFormed(Pending(high + low))
    ensures PairStep(op, v, Pending(high + low)) ==
              (match Fold(v, high)
               case Ok(w) => Ok(Pending([(op, w)] + low))
               case Err(e) => Err(e))
  {
    ReduceChain(v, high, low, op);
    ChainWellFormed(v, high + low);
    match Fold(v, high)
    case Ok(w) => PushPair(low, op, w);
    case Err(_) =>
  }

  lemma SinglePairScan(op: char, v: int, st: State)
    requires IsOperatorChar(op) && OperatorsWellFormed(st)
    ensures AllOperators([(op, v)])
    ensures PairsScan([(op, v)], st) == PairStep(op, v, st)
  {
    assert [(op, v)][..0] == [];
  }

  /**
   The pairs of one additive term `op n0 op1 n1 ...` (with `*`/`/` inside):
   the products are folded and `op` with the product's value is stacked.
   */
  lemma AddTermScan(op: char, n0: int, high: seq<(char, int)>, low: seq<(char, int)>)
    requires IsAddOp(op)
    requires AllOperators(high) && AllMulOps(high) && AllOperators(low) && AllAddOps(low)
    ensures AllOperators([(op, n0)] + high) && OperatorsWellFormed(Pending(low))
    ensures PairsScan([(op, n0)] + high, Pending(low)) ==
              (match Fold(n0, high)
               case Ok(w) => Ok(Pending([(op, w)] + low))
               case Err(e) => Err(e))
  {
    OperatorsAppend([(op, n0)], high);
    PairsScanAppend([(op, n0)], high, Pending(low));
    MulPairsScan(high, low);
    OperatorsAppend(high, low);
    ChainWellFormed(0, high + low);
    SinglePairScan(op, n0, Pending(high + low));
    AddPairStep(op, n0, high, low);
    match Fold(n0, high)
    case Ok(w) => ChainWellFormed(0, [(op, w)] + low);
    case Err(_) =>
  }
}

=== FILE: failures.dfy ===
/**
 Error exits of `process` that hold for whole classes of inputs on a fresh
 parser: an expression without digits never produces a result, and a `(`
 with no `)` left to close it runs a stack dry inside `_operate`.
 */
module Failures {
  import opened Wrappers
  import opened Stacks
  import opened Lexing
  import opened Reduction
  import opened Parser

  predicate NoDigits(e: string) {
    forall i :: 0 <= i < |e| ==> !IsDigit(e[i])
  }

  /**
   With no operand to pop, every loop over `_operate` either reduces nothing
   or fails at the first pop, with a missing left operand.
   */
  lemma EmptyOperandsLoops(st: State)
    requires OperatorsWellFormed(st) && IsEmpty(st.operands)
    ensures forall op :: IsOperatorChar(op) ==>
              ReduceHigher(st, op) == Ok(st) || ReduceHigher(st, op) == Err(LeftOperandMissing)
    ensures Unwind(st) == Ok(st) || Unwind(st) == Err(LeftOperandMissing)
    ensures Drain(st) == Ok(st) || Drain(st) == Err(LeftOperandMissing)
  {
  }

  /** Without digits a step pushes no operand, and fails only with a missing left operand. */
  lemma StepWithoutDigits(e: string, i: nat, st: State)
    requires ValidExpression(e) && NoDigits(e) && i < |e|
    requires OperatorsWellFormed(st) && IsEmpty(st.operands)
    ensures Step(e, i, st).Ok? ==> IsEmpty(Step(e, i, st).value.operands)
    ensures Step(e, i, st).Err? ==> Step(e, i, st).error == LeftOperandMissing
  {
    EmptyOperandsLoops(st);
    assert !IsDigit(e[i]);
  }

  /**
   Without digits no step ever pushes an operand, so the operand stack stays
   empty, and a failing scan fails with a missing left operand.
   */
  lemma {:induction false} ScanWithoutDigits(e: string, hi: nat, st: State)
    requires ValidExpression(e) && NoDigits(e) && hi <= |e|
    requires OperatorsWellFormed(st) && IsEmpty(st.operands)
    ensures Scan(e, hi, 0, st).Ok? ==> IsEmpty(Scan(e, hi, 0, st).value.operands)
    ensures Scan(e, hi, 0, st).Err? ==> Scan(e, hi, 0, st).error == LeftOperandMissing
    decreases hi
  {
    if hi > 0 {
      var step := Step(e, hi - 1, st);
      StepWithoutDigits(e, hi - 1, st);
      assert Scan(e, hi, 0, st) == if step.Ok? then Scan(e, hi - 1, 0, step.value) else Err(step.error);
      if step.Ok? {
        ScanWithoutDigits(e, hi - 1, step.value);
      }
    }
  }

  /**
   An expression without digits (for instance `""`, `"+"`, `"("` or `")+)"`)
   always fails: either no result is left to pop, or an `_operate` call finds
   no left operand.
   */
  lemma NoDigitsFails(e: string)
    requires ValidExpression(e) && NoDigits(e)
    ensures Evaluate(e) == Err(NoResult) || Evaluate(e) == Err(LeftOperandMissing)
  {
    ScanWithoutDigits(e, |e|, Initial());
    var scanned := Scan(e, |e|, 0, Initial());
    if scanned.Ok? {
      EmptyOperandsLoops(scanned.value);
    }
  }

  /** Only operator characters: none is a binary operator (each follows an operator) or a sign (none precedes a digit). */
  lemma {:induction false} ScanOperatorsOnly(e: string, hi: nat, st: State)
    requires ValidExpression(e) && hi <= |e| && OperatorsWellFormed(st)
    requires forall i :: 0 <= i < |e| ==> IsOperatorChar(e[i])
    ensures Scan(e, hi, 0, st) == Ok(st)
    decreases hi
  {
    if hi > 0 {
      var i := hi - 1;
      assert !IsOperator(e, i) by {
        if 0 < i { assert IsOperatorChar(e[i - 1]); }
      }
      assert !IsSign(e, i) by {
        if i < |e| - 1 { assert IsOperatorChar(e[i + 1]); }
      }
      assert Step(e, i, st) == Ok(st);
      ScanOperatorsOnly(e, i, st);
    }
  }

  /** An expression of operators alone (for instance `"+"` or `"*-+"`) has no result to pop. */
  lemma OperatorsOnlyNoResult(e: string)
    requires ValidExpression(e) && NoDigits(e)
    requires LeftBracket !in e && RightBracket !in e
    ensures Evaluate(e) == Err(NoResult)
  {
    forall i | 0 <= i < |e|
      ensures IsOperatorChar(e[i])
    {
      assert InAlphabet(e[i]) && !IsDigit(e[i]);
      assert e[i] != LeftBracket && e[i] != RightBracket;
    }
    ScanOperatorsOnly(e, |e|, Initial());
  }

  /** The number of `)` markers in a sequence of operator tokens. */
  function Markers(s: seq<char>): nat {
    if |s| == 0 then 0
    else Markers(s[..|s| - 1]) + (if s[|s| - 1] == RightBracket then 1 else 0)
  }

  /** How many more `)` than `(` the expression holds from index `k` on. */
  function Depth(e: string, k: nat): int
    requires k <= |e|
    decreases |e| - k
  {
    if k == |e| then 0
    else Depth(e, k + 1) + (if e[k] == RightBracket then 1 else if e[k] == LeftBracket then -1 else 0)
  }

  lemma {:induction false} MarkersOfPrefix(s: seq<char>, n: nat)
    requires n <= |s|
    requires forall k :: n <= k < |s| ==> s[k] != RightBracket
    ensures Markers(s[..n]) == Markers(s)
    decreases |s| - n
  {
    if n < |s| {
      assert s[..|s| - 1][..n] == s[..n];
      MarkersOfPrefix(s[..|s| - 1], n);
    } else {
      assert s[..n] == s;
    }
  }

  lemma MarkersNone(s: seq<char>)
    requires Markers(s) == 0
    ensures RightBracket !in s
  {
    if |s| > 0 {
      MarkersNone(s[..|s| - 1]);
      assert s == s[..|s| - 1] + [s[|s| - 1]];
    }
  }

  lemma MarkersKept(before: State, after: State)
    requires PoppedWithoutMarker(before, after)
    ensures Markers(after.operators.items) == Markers(before.operators.items)
  {
    MarkersOfPrefix(before.operators.items, Size(after.operators));
  }

  lemma MarkersPush(s: seq<char>, c: char)
    ensures Markers(s + [c]) == Markers(s) + (if c == RightBracket then 1 else 0)
  {
    assert (s + [c])[..|s|] == s;
  }

  /** One step changes the number of `)` markers by +1 at a `)`, by -1 at a `(`, and by 0 elsewhere. */
  lemma StepMarkers(e: string, k: nat, st: State)
    requires ValidExpression(e) && k < |e| && OperatorsWellFormed(st)
    requires Step(e, k, st).Ok?
    ensures Markers(Step(e, k, st).value.operators.items) ==
              Markers(st.operators.items) + (if e[k] == RightBracket then 1 else if e[k] == LeftBracket then -1 else 0)
  {
    var r := Step(e, k, st).value;
    if IsOperator(e, k) {
      var reduced := ReduceHigher(st, e[k]).value;
      MarkersKept(st, reduced);
      MarkersPush(reduced.operators.items, e[k]);
    } else if IsSign(e, k) {
      if e[k] == Minus {
        MarkersPush(st.operators.items, Times);
      }
    } else if IsLeftBracket(e, k) {
      var unwound := Unwind(st).value;
      MarkersKept(st, unwound);
      var n := Size(unwound.operators);
      assert unwound.operators.items == unwound.operators.items[..n - 1] + [RightBracket];
      MarkersPush(unwound.operators.items[..n - 1], RightBracket);
    } else if IsRightBracket(e, k) {
      MarkersPush(st.operators.items, RightBracket);
    }
  }

  /**
   Scanning down from `hi` with the markers matching the brackets already
   seen: reaching a `(` that no `)` to its right is left to close fails.
   */
  lemma {:induction false} ScanUnmatched(e: string, hi: nat, st: State, i: nat)
    requires ValidExpression(e) && hi <= |e| && OperatorsWellFormed(st)
    requires Markers(st.operators.items) == Depth(e, hi)
    requires i < hi && e[i] == LeftBracket && Depth(e, i + 1) <= 0
    ensures Scan(e, hi, 0, st).Err?
    decreases hi
  {
    var k := hi - 1;
    var step := Step(e, k, st);
    assert Scan(e, hi, 0, st) == if step.Ok? then Scan(e, k, 0, step.value) else Err(step.error);
    if k == i {
      MarkersNone(st.operators.items);
      StepAtLeftBracket(e, i, st);
    } else if step.Ok? {
      StepMarkers(e, k, st);
      assert Depth(e, k) == Depth(e, hi) + (if e[k] == RightBracket then 1 else if e[k] == LeftBracket then -1 else 0);
      ScanUnmatched(e, k, step.value, i);
    }
  }

  lemma StepAtLeftBracket(e: string, k: nat, st: State)
    requires ValidExpression(e) && k < |e| && OperatorsWellFormed(st)
    requires e[k] == LeftBracket && RightBracket !in st.operators.items
    ensures Step(e, k, st).Err?
  {
    assert !IsOperator(e, k) && !IsSign(e, k) && IsLeftBracket(e, k);
    assert Unwind(st).Err?;
  }

  /**
   A `(` with no more `)` than `(` to its right has no marker to unwind to,
   so evaluation fails.
   */
  lemma UnmatchedLeftBracketFails(e: string, i: nat)
    requires ValidExpression(e)
    requires i < |e| && e[i] == LeftBracket && Depth(e, i + 1) <= 0
    ensures Evaluate(e).Err?
  {
    ScanUnmatched(e, |e|, Initial(), i);
  }
}

=== FILE: lexing.dfy ===
/**
 Character classes and the per-index classification predicates of
 `ExpressionParser` (src/calculator.py), plus the decimal value of a digit run.
 Input is restricted to ASCII digits and the six symbols `+ - * / ( )`.
 */
module Lexing {

  const Plus := '+'
  const Minus := '-'
  const Times := '*'
  const Divide := '/'
  const LeftBracket := '('
  const RightBracket := ')'

  predicate IsDigit(c: char) {
    '0' <= c <= '9'
  }

  /** Membership in `_OPERATORS`. */
  predicate IsOperatorChar(c: char) {
    c == Plus || c == Minus || c == Times || c == Divide
  }

  /** Membership in `_SYMBOLS`. */
  predicate IsSymbolChar(c: char) {
    IsOperatorChar(c) || c == LeftBracket || c == RightBracket
  }

  predicate InAlphabet(c: char) {
    IsDigit(c) || IsSymbolChar(c)
  }

  predicate ValidExpression(e: string) {
    forall i :: 0 <= i < |e| ==> InAlphabet(e[i])
  }

  predicate AllDigits(s: string) {
    forall i :: 0 <= i < |s| ==> IsDigit(s[i])
  }

  /** `_OPERATOR_PRIORITIES`: multiplication and division outrank addition and subtraction. */
  function Priority(c: char): nat
    requires IsOperatorChar(c)
  {
    if c == Plus || c == Minus then 1 else 10
  }

  /** `_is_operator`: a binary operator, neither first nor last, not preceded by an operator or `(`. */
  predicate IsOperator(e: string, i: nat)
    requires i < |e|
  {
    && 0 < i < |e| - 1
    && IsOperatorChar(e[i])
    && !IsOperatorChar(e[i - 1])
    && e[i - 1] != LeftBracket
  }

  /** `_is_sign`: `+` or `-` followed by a digit, at the start or after an operator or `(`. */
  predicate IsSign(e: string, i: nat)
    requires i < |e|
  {
    && i < |e| - 1
    && IsDigit(e[i + 1])
    && (e[i] == Plus || e[i] == Minus)
    && (i == 0 || IsOperatorChar(e[i - 1]) || e[i - 1] == LeftBracket)
  }

  predicate IsLeftBracket(e: string, i: nat)
    requires i < |e|
  {
    e[i] == LeftBracket
  }

  predicate IsRightBracket(e: string, i: nat)
    requires i < |e|
  {
    e[i] == RightBracket
  }

  /** `_can_trim_num`: a digit that begins a digit run (nothing or a non-digit on its left). */
  predicate CanTrimNum(e: string, i: nat)
    requires i < |e|
  {
    IsDigit(e[i]) && (i == 0 || !IsDigit(e[i - 1]))
  }

  /** `_is_symbol`: the test that re-anchors the `ref` cursor. */
  predicate IsSymbol(e: string, i: nat)
    requires i < |e|
  {
    IsSymbolChar(e[i])
  }

  /**
   The classification used by the scan: an operator and a sign are never
   recognised at the same index, and an operator is never recognised at the
   first or last index, and a sign never at the last index (so a trailing
   operator is ignored).
   */
  lemma OperatorSignExclusive(e: string, i: nat)
    requires i < |e|
    ensures !(IsOperator(e, i) && IsSign(e, i))
    ensures IsOperator(e, i) ==> 0 < i < |e| - 1
    ensures i == 0 || i == |e| - 1 ==> !IsOperator(e, i)
    ensures i == |e| - 1 ==> !IsSign(e, i)
  {
  }

  /**
   The index of the nearest symbol at or after `k`, or `|e|` when there is
   none: the declarative meaning of the `ref` cursor.
   */
  function NextSymbol(e: string, k: nat): (r: nat)
    requires k <= |e|
    ensures k <= r <= |e|
    ensures r < |e| ==> IsSymbolChar(e[r])
    ensures forall j :: k <= j < r ==> !IsSymbolChar(e[j])
    decreases |e| - k
  {
    if k == |e| then |e|
    else if IsSymbolChar(e[k]) then k
    else NextSymbol(e, k + 1)
  }

  /**
   Over the restricted alphabet, the slice from a run start `i` to the
   nearest symbol after it is exactly the maximal digit run starting at `i`:
   non-empty, all digits, and bounded by non-digits (or the ends) on both sides.
   */
  lemma DigitRun(e: string, i: nat)
    requires ValidExpression(e)
    requires i < |e| && CanTrimNum(e, i)
    ensures i < NextSymbol(e, i + 1) <= |e|
    ensures AllDigits(e[i..NextSymbol(e, i + 1)])
    ensures NextSymbol(e, i + 1) == |e| || !IsDigit(e[NextSymbol(e, i + 1)])
    ensures i == 0 || !IsDigit(e[i - 1])
  {
    var j := NextSymbol(e, i + 1);
    forall k | 0 <= k < j - i
      ensures IsDigit(e[i..j][k])
    {
      assert e[i..j][k] == e[i + k];
      if k > 0 {
        assert !IsSymbolChar(e[i + k]);
        assert InAlphabet(e[i + k]);
      }
    }
  }

  function DigitValue(c: char): nat
    requires IsDigit(c)
  {
    (c as int) - ('0' as int)
  }

  function DigitChar(d: nat): (c: char)
    requires d < 10
    ensures IsDigit(c) && DigitValue(c) == d
  {
    (('0' as int) + d) as char
  }

  /** `int(...)` on a run of ASCII digits: its base-10 value, leading zeros allowed. */
  function DigitsValue(s: string): nat
    requires AllDigits(s)
  {
    if |s| == 0 then 0
    else DigitsValue(s[..|s| - 1]) * 10 + DigitValue(s[|s| - 1])
  }

  /** The canonical decimal numeral of `n`, the inverse of `DigitsValue`. */
  function Show(n: nat): (s: string)
    ensures |s| > 0 && AllDigits(s)
    ensures |s| > 1 ==> s[0] != '0'
  {
    if n < 10 then [DigitChar(n)] else Show(n / 10) + [DigitChar(n % 10)]
  }

  /** Parsing a rendered number gives the number back. */
  lemma {:induction false} ParseShow(n: nat)
    ensures DigitsValue(Show(n)) == n
  {
    if n >= 10 {
      var s := Show(n);
      assert s[..|s| - 1] == Show(n / 10);
      ParseShow(n / 10);
    }
  }
}

=== FILE: parser.dfy ===
/**
 `ExpressionParser.process` (src/calculator.py): one right-to-left pass over
 the expression that classifies each index and updates the two stacks, then
 the final drain and the result pop. `Step`/`Scan`/`Run` are the functional
 model; `Process` is the loop as written, with its `ref` cursor, proved to
 compute the same thing.
 */
module Parser {
  import opened Wrappers
  import opened Stacks
  import opened Lexing
  import opened Reduction

  /** `int(expression[index:ref])` at the start of a digit run: the value of that whole run. */
  function NumberAt(e: string, i: nat): nat
    requires ValidExpression(e) && i < |e| && CanTrimNum(e, i)
  {
    DigitRun(e, i);
    DigitsValue(e[i..NextSymbol(e, i + 1)])
  }

  /**
   One iteration of the `for` loop of `process` at index `i`: the first
   matching branch of operator / sign / `(` / `)` / run start acts, and any
   other character (a digit inside a run) leaves the stacks alone.
   The operator stack keeps holding only binary operators and `)` markers.
   */
  function Step(e: string, i: nat, st: State): (r: Result<State, Error>)
    requires ValidExpression(e) && i < |e| && OperatorsWellFormed(st)
    ensures r.Ok? ==> OperatorsWellFormed(r.value)
  {
    if IsOperator(e, i) then
      var reduced :- ReduceHigher(st, e[i]);
      OperatorsPushPop(reduced, reduced.operands, e[i]);
      Ok(State(reduced.operands, Push(reduced.operators, e[i])))
    else if IsSign(e, i) then
      OperatorsPushPop(st, Push(st.operands, -1), Times);
      if e[i] == Minus then Ok(State(Push(st.operands, -1), Push(st.operators, Times)))
      else Ok(st)
    else if IsLeftBracket(e, i) then
      var unwound :- Unwind(st);
      OperatorsPushPop(unwound, unwound.operands, Times);
      Ok(State(unwound.operands, Pop(unwound.operators).1))
    else if IsRightBracket(e, i) then
      OperatorsPushPop(st, st.operands, RightBracket);
      Ok(State(st.operands, Push(st.operators, RightBracket)))
    else if CanTrimNum(e, i) then
      Ok(State(Push(st.operands, NumberAt(e, i)), st.operators))
    else
      Ok(st)
  }

  /** An operator at the last index is neither a binary operator nor a sign: its step changes nothing. */
  lemma TrailingOperatorSkipped(e: string, st: State)
    requires ValidExpression(e) && |e| > 0 && IsOperatorChar(e[|e| - 1]) && OperatorsWellFormed(st)
    ensures Step(e, |e| - 1, st) == Ok(st)
  {
    OperatorSignExclusive(e, |e| - 1);
  }

  /** The iterations for indices `hi - 1` down to `lo`, stopping at the first error. */
  function Scan(e: string, hi: nat, lo: nat, st: State): (r: Result<State, Error>)
    requires ValidExpression(e) && lo <= hi <= |e| && OperatorsWellFormed(st)
    ensures r.Ok? ==> OperatorsWellFormed(r.value)
    decreases hi - lo
  {
    if hi == lo then Ok(st)
    else
      var next :- Step(e, hi - 1, st);
      Scan(e, hi - 1, lo, next)
  }

  /**
   `process` on a parser whose stacks are `st`: the scan, the drain, and the
   pop of the result. On success it answers the result and the stacks left
   behind (the operator stack is then empty; operands may remain).
   */
  function Run(e: string, st: State): (r: Result<(int, State), Error>)
    requires ValidExpression(e) && OperatorsWellFormed(st)
    ensures r.Ok? ==> IsEmpty(r.value.1.operators)
    ensures |e| == 0 && st == Initial() ==> r == Err(NoResult)
  {
    var scanned :- Scan(e, |e|, 0, st);
    var drained :- Drain(scanned);
    var (result, rest) := Pop(drained.operands);
    if result.None? then Err(NoResult) else Ok((result.value, State(rest, drained.operators)))
  }

  /** `ExpressionParser().process(e)`: evaluation on a freshly constructed parser. */
  function Evaluate(e: string): Result<int, Error>
    requires ValidExpression(e)
  {
    var out :- Run(e, Initial());
    Ok(out.0)
  }

  /** The precedence `while` loop at an operator: `_operate` while the head outranks `op`. */
  method ReduceLoop(st0: State, op: char) returns (r: Result<State, Error>)
    requires OperatorsWellFormed(st0) && IsOperatorChar(op)
    ensures r == ReduceHigher(st0, op)
  {
    var st := st0;
    var top := Peek(st.operators);
    while top.Some? && top.value != RightBracket && Priority(top.value) > Priority(op)
      invariant OperatorsWellFormed(st)
      invariant top == Peek(st.operators)
      invariant ReduceHigher(st, op) == ReduceHigher(st0, op)
      decreases Size(st.operators)
    {
      var next := Operate(st);
      if next.Err? {
        return Err(next.error);
      }
      st := next.value;
      top := Peek(st.operators);
    }
    return Ok(st);
  }

  /** The `while` loop at a `(`: `_operate` until the head is a `)` marker. */
  method UnwindLoop(st0: State) returns (r: Result<State, Error>)
    requires OperatorsWellFormed(st0)
    ensures r == Unwind(st0)
  {
    var st := st0;
    while Peek(st.operators) != Some(RightBracket)
      invariant OperatorsWellFormed(st)
      invariant Unwind(st) == Unwind(st0)
      decreases Size(st.operators)
    {
      var next := Operate(st);
      if next.Err? {
        return Err(next.error);
      }
      st := next.value;
    }
    return Ok(st);
  }

  /** The final `while` loop: `_operate` until the operator stack is empty. */
  method DrainLoop(st0: State) returns (r: Result<State, Error>)
    ensures r == Drain(st0)
  {
    var st := st0;
    while Peek(st.operators).Some?
      invariant Drain(st) == Drain(st0)
      decreases Size(st.operators)
    {
      var next := Operate(st);
      if next.Err? {
        return Err(next.error);
      }
      st := next.value;
    }
    return Ok(st);
  }

  /**
   The body of the `for` loop at `index`, given the cursor `ref` on the
   nearest symbol to the right: the slice taken at a run start is exactly
   that digit run.
   */
  method ProcessIndex(e: string, index: nat, ref: nat, st: State) returns (r: Result<State, Error>)
    requires ValidExpression(e) && index < |e| && OperatorsWellFormed(st)
    requires ref == NextSymbol(e, index + 1)
    ensures r == Step(e, index, st)
  {
    if IsOperator(e, index) {
      var op := e[index];
      var reduced := ReduceLoop(st, op);
      if reduced.Err? {
        return Err(reduced.error);
      }
      return Ok(State(reduced.value.operands, Push(reduced.value.operators, op)));
    } else if IsSign(e, index) {
      if e[index] == Minus {
        return Ok(State(Push(st.operands, -1), Push(st.operators, Times)));
      }
      return Ok(st);
    } else if IsLeftBracket(e, index) {
      var unwound := UnwindLoop(st);
      if unwound.Err? {
        return Err(unwound.error);
      }
      return Ok(State(unwound.value.operands, Pop(unwound.value.operators).1));
    } else if IsRightBracket(e, index) {
      return Ok(State(st.operands, Push(st.operators, RightBracket)));
    } else if CanTrimNum(e, index) {
      DigitRun(e, index);
      var num := DigitsValue(e[index..ref]);
      return Ok(State(Push(st.operands, num), st.operators));
    }
    return Ok(st);
  }

  /**
   The loop of `process` as written: the cursor `ref` always sits on the
   nearest symbol to the right of the current index (or at the end).
   */
  method Process(e: string, st0: State) returns (r: Result<(int, State), Error>)
    requires ValidExpression(e) && OperatorsWellFormed(st0)
    ensures r == Run(e, st0)
  {
    var st := st0;
    var ref := |e|;
    var index: nat := |e|;
    while index > 0
      invariant index <= |e|
      invariant ref == NextSymbol(e, index)
      invariant OperatorsWellFormed(st)
      invariant Scan(e, |e|, 0, st0) == Scan(e, index, 0, st)
    {
      index := index - 1;
      var next := ProcessIndex(e, index, ref, st);
      if next.Err? {
        return Err(next.error);
      }
      st := next.value;
      if IsSymbol(e, index) {
        ref := index;
      }
    }
    var drained := DrainLoop(st);
    if drained.Err? {
      return Err(drained.error);
    }
    var (result, rest) := Pop(drained.value.operands);
    if result.None? {
      return Err(NoResult);
    }
    return Ok((result.value, State(rest, drained.value.operators)));
  }
}

=== FILE: precedence.dfy ===
/**
 Correctness of `process` on the bracket-free, sign-free fragment: sums of
 products of unsigned decimal numerals. On such text the evaluator agrees
 with the usual reading: `*` and `/` bind tighter than `+` and `-`, operators
 of equal priority group to the left, `/` truncates toward zero, and the only
 failure is a zero divisor.
 */
module Precedence {
  import opened Wrappers
  import opened Stacks
  import opened Lexing
  import opened Arithmetic
  import opened Reduction
  import opened Parser
  import opened Chains
  import opened Spelling

  /** A product `n0 op1 n1 op2 n2 ...` of numerals, each operator `*` or `/`. */
  datatype Term = Term(first: string, factors: seq<(char, string)>)

  /** A sum `t0 op1 t1 op2 t2 ...` of products, each operator `+` or `-`. */
  datatype Sum = Sum(first: Term, terms: seq<(char, Term)>)

  predicate ValidFactors(fs: seq<(char, string)>) {
    forall k :: 0 <= k < |fs| ==> IsMulOp(fs[k].0) && IsNumeral(fs[k].1)
  }

  predicate ValidTerm(t: Term) {
    IsNumeral(t.first) && ValidFactors(t.factors)
  }

  predicate ValidTerms(ts: seq<(char, Term)>) {
    forall k :: 0 <= k < |ts| ==> IsAddOp(ts[k].0) && ValidTerm(ts[k].1)
  }

  predicate ValidSum(s: Sum) {
    ValidTerm(s.first) && ValidTerms(s.terms)
  }

  // Reference semantics: products first, then the sum, both left to right.

  /** `acc * v`, or `acc / v` truncated toward zero and failing on a zero divisor. */
  function MulDiv(acc: int, op: char, v: int): Result<int, Error> {
    if op == Times then Ok(acc * v)
    else if v == 0 then Err(DivisionByZero)
    else Ok(Quot(acc, v))
  }

  function ProductFrom(acc: int, fs: seq<(char, string)>): Result<int, Error>
    requires ValidFactors(fs)
    decreases |fs|
  {
    if |fs| == 0 then Ok(acc)
    else
      var v :- MulDiv(acc, fs[0].0, DigitsValue(fs[0].1));
      ProductFrom(v, fs[1..])
  }

  function TermValue(t: Term): Result<int, Error>
    requires ValidTerm(t)
  {
    ProductFrom(DigitsValue(t.first), t.factors)
  }

  function SumFrom(acc: int, ts: seq<(char, Term)>): Result<int, Error>
    requires ValidTerms(ts)
    decreases |ts|
  {
    if |ts| == 0 then Ok(acc)
    else
      var v :- TermValue(ts[0].1);
      SumFrom(if ts[0].0 == Plus then acc + v else acc - v, ts[1..])
  }

  function SumValue(s: Sum): Result<int, Error>
    requires ValidSum(s)
  {
    var v :- TermValue(s.first);
    SumFrom(v, s.terms)
  }

  // The text of a sum.

  /** The (operator, numeral) pairs of the terms after the first, in text order. */
  function TermsPairs(ts: seq<(char, Term)>): seq<(char, string)>
    decreases |ts|
  {
    if |ts| == 0 then [] else [(ts[0].0, ts[0].1.first)] + ts[0].1.factors + TermsPairs(ts[1..])
  }

  function Render(s: Sum): string {
    s.first.first + Spell(s.first.factors + TermsPairs(s.terms))
  }

  // The bridge between the reference and the chains on the stacks.

  lemma FactorsAsChain(fs: seq<(char, string)>)
    requires ValidFactors(fs)
    ensures ValidPairs(fs) && AllMulOps(Values(fs))
  {
  }

  /** A product is the left fold of its chain. */
  lemma {:induction false} ProductIsFold(acc: int, fs: seq<(char, string)>)
    requires ValidFactors(fs)
    ensures ValidPairs(fs) && ProductFrom(acc, fs) == Fold(acc, Values(fs))
    decreases |fs|
  {
    if |fs| > 0 {
      assert ValidFactors(fs[1..]);
      ValuesPrefix(fs, |fs|);
      assert Values(fs)[1..] == Values(fs[1..]);
      assert MulDiv(acc, fs[0].0, DigitsValue(fs[0].1)) == Calculate(acc, DigitsValue(fs[0].1), fs[0].0);
      match MulDiv(acc, fs[0].0, DigitsValue(fs[0].1))
      case Ok(v) => ProductIsFold(v, fs[1..]);
      case Err(_) =>
    }
  }

  predicate TermsOk(ts: seq<(char, Term)>)
    requires ValidTerms(ts)
  {
    forall k :: 0 <= k < |ts| ==> TermValue(ts[k].1).Ok?
  }

  /** The terms after the first, each replaced by its value. */
  function TermVals(ts: seq<(char, Term)>): (r: seq<(char, int)>)
    requires ValidTerms(ts) && TermsOk(ts)
    ensures |r| == |ts| && AllOperators(r) && AllAddOps(r)
    decreases |ts|
  {
    if |ts| == 0 then []
    else [(ts[0].0, TermValue(ts[0].1).value)] + TermVals(ts[1..])
  }

  /** A sum of term values is the left fold of their chain; a failing term fails the sum. */
  lemma {:induction false} SumIsFold(acc: int, ts: seq<(char, Term)>)
    requires ValidTerms(ts)
    ensures TermsOk(ts) ==> SumFrom(acc, ts) == Fold(acc, TermVals(ts))
    ensures !TermsOk(ts) ==> SumFrom(acc, ts) == Err(DivisionByZero)
    decreases |ts|
  {
    if |ts| > 0 {
      var rest := ts[1..];
      assert ValidTerms(rest);
      assert TermsOk(ts) <==> TermValue(ts[0].1).Ok? && TermsOk(rest) by {
        assert forall k :: 0 <= k < |rest| ==> rest[k] == ts[k + 1];
      }
      var t := TermValue(ts[0].1);
      if t.Ok? {
        SumIsFold(if ts[0].0 == Plus then acc + t.value else acc - t.value, rest);
      } else {
        assert t == Err(DivisionByZero) by {
          ProductIsFold(DigitsValue(ts[0].1.first), ts[0].1.factors);
        }
      }
    }
  }

  /** The pairs of one term after the first, in text order. */
  lemma TermPairs(op: char, t: Term)
    requires IsAddOp(op) && ValidTerm(t)
    ensures ValidPairs([(op, t.first)] + t.factors) && AllMulOps(Values(t.factors))
    ensures Values([(op, t.first)] + t.factors) == [(op, DigitsValue(t.first))] + Values(t.factors)
  {
    FactorsAsChain(t.factors);
    assert ValidPairs([(op, t.first)]);
    ValuesAppend([(op, t.first)], t.factors);
  }

  /** Scanning the pairs of one term `op t` folds its product and stacks `op value(t)`. */
  lemma TermScan(op: char, t: Term, low: seq<(char, int)>)
    requires IsAddOp(op) && ValidTerm(t) && AllOperators(low) && AllAddOps(low)
    ensures ValidPairs([(op, t.first)] + t.factors)
    ensures OperatorsWellFormed(Pending(low))
    ensures PairsScan(Values([(op, t.first)] + t.factors), Pending(low)) ==
              if TermValue(t).Ok? then Ok(Pending([(op, TermValue(t).value)] + low)) else Err(DivisionByZero)
  {
    TermPairs(op, t);
    AddTermScan(op, DigitsValue(t.first), Values(t.factors), low);
    ProductIsFold(DigitsValue(t.first), t.factors);
  }

  /** Splitting off the first term after the first. */
  lemma TermsSplit(ts: seq<(char, Term)>)
    requires ValidTerms(ts) && |ts| > 0
    ensures ValidTerms(ts[1..]) && ValidTerm(ts[0].1) && IsAddOp(ts[0].0)
    ensures TermsOk(ts) <==> TermValue(ts[0].1).Ok? && TermsOk(ts[1..])
    ensures TermsPairs(ts) == ([(ts[0].0, ts[0].1.first)] + ts[0].1.factors) + TermsPairs(ts[1..])
  {
    var rest := ts[1..];
    assert forall k :: 0 <= k < |rest| ==> rest[k] == ts[k + 1];
  }

  /** Scanning the pairs of all terms after the first stacks their values. */
  lemma {:induction false} TermsScan(ts: seq<(char, Term)>, low: seq<(char, int)>)
    requires ValidTerms(ts) && AllOperators(low) && AllAddOps(low)
    ensures ValidPairs(TermsPairs(ts)) && OperatorsWellFormed(Pending(low))
    ensures PairsScan(Values(TermsPairs(ts)), Pending(low)) ==
              if TermsOk(ts) then Ok(Pending(TermVals(ts) + low)) else Err(DivisionByZero)
    decreases |ts|
  {
    ChainWellFormed(0, low);
    if |ts| == 0 {
      assert TermVals(ts) + low == low;
    } else {
      var (op, t) := ts[0];
      var rest := ts[1..];
      TermsSplit(ts);
      TermsScan(rest, low);
      TermPairs(op, t);
      var head := [(op, t.first)] + t.factors;
      ValuesAppend(head, TermsPairs(rest));
      PairsScanAppend(Values(head), Values(TermsPairs(rest)), Pending(low));
      if TermsOk(rest) {
        AddChainAppend(TermVals(rest), low);
        TermScan(op, t, TermVals(rest) + low);
        if TermsOk(ts) {
          TermValsCons(ts, low);
        }
      }
    }
  }

  lemma TermValsCons(ts: seq<(char, Term)>, low: seq<(char, int)>)
    requires ValidTerms(ts) && |ts| > 0 && TermsOk(ts)
    ensures ValidTerms(ts[1..]) && TermsOk(ts[1..])
    ensures TermVals(ts) + low == [(ts[0].0, TermValue(ts[0].1).value)] + (TermVals(ts[1..]) + low)
  {
    TermsSplit(ts);
  }

  lemma AddChainAppend(xs: seq<(char, int)>, ys: seq<(char, int)>)
    requires AllOperators(xs) && AllAddOps(xs) && AllOperators(ys) && AllAddOps(ys)
    ensures AllOperators(xs + ys) && AllAddOps(xs + ys)
  {
    var zs := xs + ys;
    assert forall k :: 0 <= k < |zs| ==> zs[k] == if k < |xs| then xs[k] else ys[k - |xs|];
  }

  /** The stacks after scanning a rendered sum: the whole chain of the sum, unreduced except inside products. */
  lemma ScanRendered(s: Sum)
    requires ValidSum(s)
    ensures ValidExpression(Render(s))
    ensures ValidPairs(s.first.factors)
    ensures TermsOk(s.terms) ==>
              && AllOperators(Values(s.first.factors) + TermVals(s.terms))
              && Scan(Render(s), |Render(s)|, 0, Initial()) ==
                   Ok(Holding(DigitsValue(s.first.first), Values(s.first.factors) + TermVals(s.terms)))
    ensures !TermsOk(s.terms) ==> Scan(Render(s), |Render(s)|, 0, Initial()) == Err(DivisionByZero)
  {
    var fs := s.first.factors;
    var tp := TermsPairs(s.terms);
    FactorsAsChain(fs);
    TermsScan(s.terms, []);
    ValuesAppend(fs, tp);
    ScanSpelled(s.first.first, fs + tp, Initial());
    assert Initial() == Pending([]);
    PairsScanAppend(Values(fs), Values(tp), Pending([]));
    if TermsOk(s.terms) {
      var tv := TermVals(s.terms);
      assert tv + [] == tv;
      MulPairsScan(Values(fs), tv);
      OperatorsAppend(Values(fs), tv);
    }
  }

  /** A scan that leaves exactly one chain on the stacks evaluates to the chain's fold. */
  lemma EvaluateChain(e: string, acc: int, chain: seq<(char, int)>)
    requires ValidExpression(e) && AllOperators(chain)
    requires Scan(e, |e|, 0, Initial()) == Ok(Holding(acc, chain))
    ensures Evaluate(e) == Fold(acc, chain)
  {
    DrainChain(acc, chain);
  }

  /**
   On a sum of products of numerals, `process` computes the value given by
   the usual precedence rules, and fails exactly when some division by zero
   occurs in that evaluation.
   */
  lemma RenderedSumEvaluates(s: Sum)
    requires ValidSum(s)
    ensures ValidExpression(Render(s)) && Evaluate(Render(s)) == SumValue(s)
  {
    ScanRendered(s);
    var n0 := DigitsValue(s.first.first);
    ProductIsFold(n0, s.first.factors);
    if TermsOk(s.terms) {
      var fv, tv := Values(s.first.factors), TermVals(s.terms);
      EvaluateChain(Render(s), n0, fv + tv);
      FoldAppend(n0, fv, tv);
      match TermValue(s.first)
      case Ok(v) => SumIsFold(v, s.terms);
      case Err(_) =>
    } else {
      match TermValue(s.first)
      case Ok(v) => SumIsFold(v, s.terms);
      case Err(_) =>
    }
  }
}

=== FILE: reduction.dfy ===
/**
 The reduction machinery of `ExpressionParser` (src/calculator.py): the two
 stacks, `_calculate`, `_operate`, and the three `while` loops of `process`
 that call `_operate` repeatedly (precedence reduction, unwinding to a `)`
 marker, and the final drain).
 */
module Reduction {
  import opened Wrappers
  import opened Stacks
  import opened Lexing
  import opened Arithmetic

  /** The evaluator's error exits (the source raises `ValueError` for each). */
  datatype Error =
    | LeftOperandMissing   // `_operate`: first operand pop answered None
    | RightOperandMissing  // `_operate`: second operand pop answered None
    | OperatorMissing      // `_operate`: operator pop answered None
    | DivisionByZero       // `_calculate`: division path with a zero right operand
    | NoResult             // `process`: the final operand pop answered None

  /** The parser instance's operand stack and operator stack. */
  datatype State = State(operands: Stack<int>, operators: Stack<char>)

  /** A freshly constructed parser: both stacks empty. */
  function Initial(): State {
    State(EmptyStack(), EmptyStack())
  }

  /** What the scan ever pushes on the operator stack: a binary operator or a `)` marker. */
  predicate IsOperatorToken(c: char) {
    IsOperatorChar(c) || c == RightBracket
  }

  predicate OperatorsWellFormed(st: State) {
    forall k :: 0 <= k < |st.operators.items| ==> IsOperatorToken(st.operators.items[k])
  }

  /** Pushing an operator token or popping the operator stack keeps it well formed, whatever the operands. */
  lemma OperatorsPushPop(st: State, operands: Stack<int>, op: char)
    requires OperatorsWellFormed(st) && IsOperatorToken(op)
    ensures OperatorsWellFormed(State(operands, Push(st.operators, op)))
    ensures OperatorsWellFormed(State(operands, Pop(st.operators).1))
  {
    var pushed := Push(st.operators, op).items;
    assert forall k :: 0 <= k < |pushed| - 1 ==> pushed[k] == st.operators.items[k];
  }

  /**
   `_calculate`: `+`, `-` and `*` combine `left op right`; every other token
   takes the division path, which fails on a zero right operand and otherwise
   truncates the exact quotient toward zero.
   */
  function Calculate(left: int, right: int, op: char): (r: Result<int, Error>)
    ensures op == Plus ==> r == Ok(left + right)
    ensures op == Minus ==> r == Ok(left - right)
    ensures op == Times ==> r == Ok(left * right)
    ensures op != Plus && op != Minus && op != Times ==>
              && (r.Err? <==> right == 0)
              && (r.Err? ==> r.error == DivisionByZero)
              && (r.Ok? ==> IsTruncatedQuotient(left, right, r.value))
  {
    if op == Plus then Ok(left + right)
    else if op == Minus then Ok(left - right)
    else if op == Times then Ok(left * right)
    else if right == 0 then Err(DivisionByZero)
    else Ok(Quot(left, right))
  }

  /**
   `_operate`: pops the left operand (the head), then the right operand, then
   the operator, and pushes their combination; fails when any pop answers None.
   */
  function Operate(st: State): (r: Result<State, Error>)
    ensures Size(st.operands) == 0 ==> r == Err(LeftOperandMissing)
    ensures Size(st.operands) == 1 ==> r == Err(RightOperandMissing)
    ensures Size(st.operands) >= 2 && Size(st.operators) == 0 ==> r == Err(OperatorMissing)
    ensures Size(st.operands) >= 2 && Size(st.operators) >= 1 ==>
              var n, m := Size(st.operands), Size(st.operators);
              var left, right := st.operands.items[n - 1], st.operands.items[n - 2];
              match Calculate(left, right, st.operators.items[m - 1])
              case Err(e) => r == Err(e)
              case Ok(v) =>
                r == Ok(State(Stack(st.operands.items[..n - 2] + [v]),
                              Stack(st.operators.items[..m - 1])))
    ensures r.Ok? ==> Size(r.value.operands) == Size(st.operands) - 1
    ensures r.Ok? ==> Size(r.value.operators) == Size(st.operators) - 1
    ensures r.Ok? && OperatorsWellFormed(st) ==> OperatorsWellFormed(r.value)
  {
    var (left, below1) := Pop(st.operands);
    var (right, below2) := Pop(below1);
    var (op, opsBelow) := Pop(st.operators);
    if left.None? then Err(LeftOperandMissing)
    else if right.None? then Err(RightOperandMissing)
    else if op.None? then Err(OperatorMissing)
    else
      PopOperands(st);
      var v :- Calculate(left.value, right.value, op.value);
      Ok(State(Push(below2, v), opsBelow))
  }

  /** What the three pops of `_operate` answer when both stacks are deep enough. */
  lemma PopOperands(st: State)
    requires Size(st.operands) >= 2 && Size(st.operators) >= 1
    ensures var n, m := Size(st.operands), Size(st.operators);
            var (left, below1) := Pop(st.operands);
            var (right, below2) := Pop(below1);
            var (op, opsBelow) := Pop(st.operators);
            && left == Some(st.operands.items[n - 1])
            && right == Some(st.operands.items[n - 2])
            && below2.items == st.operands.items[..n - 2]
            && op == Some(st.operators.items[m - 1])
            && opsBelow.items == st.operators.items[..m - 1]
            && (OperatorsWellFormed(st) ==> forall k :: 0 <= k < m - 1 ==> IsOperatorToken(opsBelow.items[k]))
  {
    var n := Size(st.operands);
    assert st.operands.items[..n - 1][..n - 2] == st.operands.items[..n - 2];
  }

  /** The operator stack after a run of `_operate` calls: what is left is a prefix, and the popped part holds no `)` marker. */
  predicate PoppedWithoutMarker(before: State, after: State) {
    && Size(after.operators) <= Size(before.operators)
    && after.operators.items == before.operators.items[..Size(after.operators)]
    && (forall k :: Size(after.operators) <= k < Size(before.operators) ==>
          before.operators.items[k] != RightBracket)
    && Size(before.operands) - Size(after.operands) == Size(before.operators) - Size(after.operators)
  }

  lemma OperateKeepsMarkers(st: State, next: State)
    requires Operate(st) == Ok(next)
    requires Peek(st.operators) != Some(RightBracket)
    ensures PoppedWithoutMarker(st, next)
  {
  }

  lemma PoppedWithoutMarkerTrans(a: State, b: State, c: State)
    requires PoppedWithoutMarker(a, b) && PoppedWithoutMarker(b, c)
    ensures PoppedWithoutMarker(a, c)
  {
    forall k | Size(c.operators) <= k < Size(a.operators)
      ensures a.operators.items[k] != RightBracket
    {
      if k < Size(b.operators) {
        assert a.operators.items[k] == b.operators.items[k];
      }
    }
  }

  /**
   The operator stack after a run of precedence reductions for `op`: every
   popped operator is a binary operator of strictly higher priority than `op`.
   */
  predicate PoppedOutranking(before: State, after: State, op: char) {
    && IsOperatorChar(op)
    && PoppedWithoutMarker(before, after)
    && (forall k :: Size(after.operators) <= k < Size(before.operators) ==>
          IsOperatorChar(before.operators.items[k]) && Priority(before.operators.items[k]) > Priority(op))
  }

  lemma OperateOutranks(st: State, next: State, op: char)
    requires IsOperatorChar(op) && Operate(st) == Ok(next)
    requires Peek(st.operators).Some? && IsOperatorChar(Peek(st.operators).value)
    requires Priority(Peek(st.operators).value) > Priority(op)
    ensures PoppedOutranking(st, next, op)
  {
    OperateKeepsMarkers(st, next);
  }

  lemma PoppedOutrankingTrans(a: State, b: State, c: State, op: char)
    requires PoppedOutranking(a, b, op) && PoppedOutranking(b, c, op)
    ensures PoppedOutranking(a, c, op)
  {
    PoppedWithoutMarkerTrans(a, b, c);
    forall k | Size(c.operators) <= k < Size(a.operators)
      ensures IsOperatorChar(a.operators.items[k]) && Priority(a.operators.items[k]) > Priority(op)
    {
      if k < Size(b.operators) {
        assert a.operators.items[k] == b.operators.items[k];
      }
    }
  }

  /** The condition that ends the precedence loop: no pending operator that outranks `op`. */
  predicate NothingOutranks(st: State, op: char)
    requires OperatorsWellFormed(st) && IsOperatorChar(op)
  {
    match Peek(st.operators)
    case None => true
    case Some(top) => top == RightBracket || Priority(top) <= Priority(op)
  }

  /**
   The precedence loop before pushing binary operator `op`: reduce while the
   head of the operator stack is an operator (not a `)` marker) of strictly
   higher priority. A `*` or `/` therefore never reduces anything, and equal
   priorities are left for later.
   */
  function ReduceHigher(st: State, op: char): (r: Result<State, Error>)
    requires OperatorsWellFormed(st) && IsOperatorChar(op)
    ensures r.Ok? ==> OperatorsWellFormed(r.value) && NothingOutranks(r.value, op)
    ensures r.Ok? ==> PoppedWithoutMarker(st, r.value)
    ensures r.Ok? ==> PoppedOutranking(st, r.value, op)
    ensures Priority(op) == Priority(Times) ==> r == Ok(st)
    decreases Size(st.operators)
  {
    match Peek(st.operators)
    case None => Ok(st)
    case Some(top) =>
      if top != RightBracket && Priority(top) > Priority(op) then
        var next :- Operate(st);
        OperateKeepsMarkers(st, next);
        OperateOutranks(st, next, op);
        var r := ReduceHigher(next, op);
        if r.Ok? then PoppedOutrankingTrans(st, next, r.value, op); r else r
      else
        Ok(st)
  }

  /**
   The comparison is strict: when the head of the operator stack is a `)`
   marker or an operator that does not outrank `op` (an equal priority
   included), the precedence loop reduces nothing.
   */
  lemma ReduceHigherStops(st: State, op: char)
    requires OperatorsWellFormed(st) && IsOperatorChar(op)
    requires !(&& Peek(st.operators).Some?
               && Peek(st.operators).value != RightBracket
               && Priority(Peek(st.operators).value) > Priority(op))
    ensures ReduceHigher(st, op) == Ok(st)
  {
  }

  /**
   The loop at a `(`: reduce until the head of the operator stack is a `)`
   marker. It stops at the topmost marker, and fails when there is none
   (the stacks run out inside `_operate`).
   */
  function Unwind(st: State): (r: Result<State, Error>)
    requires OperatorsWellFormed(st)
    ensures r.Ok? ==> OperatorsWellFormed(r.value) && Peek(r.value.operators) == Some(RightBracket)
    ensures r.Ok? ==> PoppedWithoutMarker(st, r.value)
    ensures RightBracket !in st.operators.items ==> r.Err?
    decreases Size(st.operators)
  {
    if Peek(st.operators) == Some(RightBracket) then Ok(st)
    else
      var next :- Operate(st);
      OperateKeepsMarkers(st, next);
      var r := Unwind(next);
      if r.Ok? then PoppedWithoutMarkerTrans(st, next, r.value); r else r
  }

  /**
   The final loop of `process`: reduce until the operator stack is empty.
   Each reduction consumes one operand net, so it fails unless there are more
   operands than operators.
   */
  function Drain(st: State): (r: Result<State, Error>)
    ensures r.Ok? ==> IsEmpty(r.value.operators)
    ensures r.Ok? ==> Size(r.value.operands) == Size(st.operands) - Size(st.operators)
    ensures 0 < Size(st.operators) && Size(st.operands) <= Size(st.operators) ==> r.Err?
    decreases Size(st.operators)
  {
    if Peek(st.operators).None? then Ok(st)
    else
      var next :- Operate(st);
      Drain(next)
  }
}

=== FILE: spelling.dfy ===
/**
 The text of a bracket-free, sign-free expression `n0 op1 n1 op2 n2 ...`
 and what the character scan of `process` does with it: every digit run
 becomes one operand push, every operator one precedence step, so the scan
 coincides with the token-level `PairsScan` of the chain.
 */
module Spelling {
  import opened Wrappers
  import opened Stacks
  import opened Lexing
  import opened Reduction
  import opened Parser
  import opened Chains

  /** A non-empty run of ASCII digits. */
  predicate IsNumeral(s: string) {
    |s| > 0 && AllDigits(s)
  }

  predicate ValidPairs(ps: seq<(char, string)>) {
    forall k :: 0 <= k < |ps| ==> IsOperatorChar(ps[k].0) && IsNumeral(ps[k].1)
  }

  /** The text of the pairs: each operator directly followed by its numeral. */
  function Spell(ps: seq<(char, string)>): string
    decreases |ps|
  {
    if |ps| == 0 then [] else Spell(ps[..|ps| - 1]) + [ps[|ps| - 1].0] + ps[|ps| - 1].1
  }

  /** The pairs with each numeral replaced by its value. */
  function Values(ps: seq<(char, string)>): (r: seq<(char, int)>)
    requires ValidPairs(ps)
    ensures |r| == |ps| && AllOperators(r)
  {
    seq(|ps|, i requires 0 <= i < |ps| => (ps[i].0, DigitsValue(ps[i].1)))
  }

  lemma ValuesPrefix(ps: seq<(char, string)>, k: nat)
    requires ValidPairs(ps) && k <= |ps|
    ensures ValidPairs(ps[..k]) && Values(ps[..k]) == Values(ps)[..k]
  {
  }

  lemma ValuesAppend(xs: seq<(char, string)>, ys: seq<(char, string)>)
    requires ValidPairs(xs) && ValidPairs(ys)
    ensures ValidPairs(xs + ys) && Values(xs + ys) == Values(xs) + Values(ys)
  {
    var zs := xs + ys;
    assert forall k :: 0 <= k < |zs| ==> zs[k] == if k < |xs| then xs[k] else ys[k - |xs|];
  }

  /** The spelled expression stays inside the alphabet and ends in a digit. */
  lemma {:induction false} SpellShape(first: string, ps: seq<(char, string)>)
    requires IsNumeral(first) && ValidPairs(ps)
    ensures ValidExpression(first + Spell(ps))
    ensures IsDigit((first + Spell(ps))[|first + Spell(ps)| - 1])
    decreases |ps|
  {
    if |ps| > 0 {
      var k := |ps| - 1;
      assert ValidPairs(ps[..k]);
      SpellShape(first, ps[..k]);
      var w := first + Spell(ps[..k]);
      assert first + Spell(ps) == w + [ps[k].0] + ps[k].1;
      AppendPairShape(w, ps[k].0, ps[k].1);
    }
  }

  /** Appending an operator and a numeral keeps a text in the alphabet and ending in a digit. */
  lemma AppendPairShape(w: string, c: char, n: string)
    requires ValidExpression(w) && IsOperatorChar(c) && IsNumeral(n)
    ensures ValidExpression(w + [c] + n)
    ensures IsDigit((w + [c] + n)[|w + [c] + n| - 1])
  {
    var t := w + [c] + n;
    forall i | 0 <= i < |t|
      ensures InAlphabet(t[i])
    {
      if i < |w| {
        assert t[i] == w[i];
      } else if i > |w| {
        assert t[i] == n[i - |w| - 1];
      }
    }
    assert t[|t| - 1] == n[|n| - 1];
  }

  /** Positions inside a text that starts with `w`, then `c`, then `n`. */
  lemma Positions(e: string, w: string, c: char, n: string)
    requires |w| > 0 && |w| + 1 + |n| <= |e| && e[..|w| + 1 + |n|] == w + [c] + n
    ensures e[|w|] == c && e[|w| - 1] == w[|w| - 1]
    ensures e[|w| + 1..|w| + 1 + |n|] == n && e[..|w|] == w
  {
    var t := w + [c] + n;
    assert e[|w|] == t[|w|];
    assert e[|w| - 1] == t[|w| - 1];
    assert e[|w| + 1..|t|] == t[|w| + 1..];
    assert e[..|w|] == t[..|w|];
  }

  /** A text that starts with the spelled expression starts with its last pair's split. */
  lemma SpellPrefix(e: string, first: string, ps: seq<(char, string)>)
    requires |ps| > 0
    requires |first + Spell(ps)| <= |e| && e[..|first + Spell(ps)|] == first + Spell(ps)
    ensures var k := |ps| - 1;
            var w := first + Spell(ps[..k]);
            && |w| + 1 + |ps[k].1| == |first + Spell(ps)|
            && e[..|w| + 1 + |ps[k].1|] == w + [ps[k].0] + ps[k].1
  {
    var k := |ps| - 1;
    assert first + Spell(ps) == first + Spell(ps[..k]) + [ps[k].0] + ps[k].1;
  }

  lemma SpellPositions(e: string, first: string, ps: seq<(char, string)>)
    requires IsNumeral(first) && |ps| > 0
    requires |first + Spell(ps)| <= |e| && e[..|first + Spell(ps)|] == first + Spell(ps)
    ensures var k := |ps| - 1;
            var w := first + Spell(ps[..k]);
            && 0 < |w| && |w| + 1 + |ps[k].1| == |first + Spell(ps)|
            && e[|w|] == ps[k].0 && e[|w| - 1] == w[|w| - 1]
            && e[|w| + 1..|w| + 1 + |ps[k].1|] == ps[k].1
            && e[..|w|] == w
  {
    var k := |ps| - 1;
    SpellPrefix(e, first, ps);
    Positions(e, first + Spell(ps[..k]), ps[k].0, ps[k].1);
  }

  lemma SpellEndsInDigit(first: string, ps: seq<(char, string)>)
    requires IsNumeral(first) && ValidPairs(ps) && |ps| > 0
    ensures var k := |ps| - 1;
            var w := first + Spell(ps[..k]);
            ValidPairs(ps[..k]) && IsDigit(w[|w| - 1])
  {
    var k := |ps| - 1;
    assert ValidPairs(ps[..k]);
    SpellShape(first, ps[..k]);
  }

  /** Where the last pair sits in a text that starts with the spelled expression. */
  lemma SpellLast(e: string, first: string, ps: seq<(char, string)>)
    requires IsNumeral(first) && ValidPairs(ps) && |ps| > 0
    requires |first + Spell(ps)| <= |e| && e[..|first + Spell(ps)|] == first + Spell(ps)
    ensures var k := |ps| - 1;
            var p := |first + Spell(ps[..k])|;
            && ValidPairs(ps[..k])
            && 0 < p && p + 1 + |ps[k].1| == |first + Spell(ps)|
            && e[p] == ps[k].0 && IsDigit(e[p - 1])
            && e[p + 1..p + 1 + |ps[k].1|] == ps[k].1
            && e[..p] == first + Spell(ps[..k])
  {
    SpellPositions(e, first, ps);
    SpellEndsInDigit(first, ps);
  }

  lemma NextSymbolIs(e: string, k: nat, j: nat)
    requires k <= j <= |e|
    requires forall i :: k <= i < j ==> !IsSymbolChar(e[i])
    requires j == |e| || IsSymbolChar(e[j])
    ensures NextSymbol(e, k) == j
  {
  }

  /** Scanning splits at any middle index: the right part is scanned first. */
  lemma {:induction false} ScanSplit(e: string, hi: nat, mid: nat, lo: nat, st: State)
    requires ValidExpression(e) && lo <= mid <= hi <= |e| && OperatorsWellFormed(st)
    ensures Scan(e, hi, lo, st) ==
              (match Scan(e, hi, mid, st) case Ok(s) => Scan(e, mid, lo, s) case Err(x) => Err(x))
    decreases hi - mid
  {
    if hi > mid {
      match Step(e, hi - 1, st)
      case Ok(next) => ScanSplit(e, hi - 1, mid, lo, next);
      case Err(_) =>
    }
  }

  /** A digit that continues a run (`e[a1 - 1]` is a digit too) leaves the stacks alone. */
  lemma {:induction false} InsideNumeral(e: string, a: nat, a1: nat, j: nat, st: State)
    requires ValidExpression(e) && OperatorsWellFormed(st)
    requires a1 == a + 1 && a1 <= j <= |e| && forall i :: a <= i < j ==> IsDigit(e[i])
    ensures Scan(e, j, a1, st) == Ok(st)
    decreases j
  {
    if j > a1 {
      assert IsDigit(e[j - 1]) && IsDigit(e[j - 2]);
      assert Step(e, j - 1, st) == Ok(st);
      InsideNumeral(e, a, a1, j - 1, st);
    }
  }

  /*
   The scan lemmas below take every index as a separate variable tied by
   equations, rather than as a compound expression, to keep the unfoldings
   of `Scan` small.
   */

  /** The first digit of the run `e[a..b]` pushes the value of the whole run. */
  lemma NumeralHead(e: string, a: nat, a1: nat, b: nat, n: string, st: State)
    requires ValidExpression(e) && OperatorsWellFormed(st) && IsNumeral(n)
    requires a1 == a + 1 && b == a + |n| && b <= |e| && e[a..b] == n
    requires forall i :: a <= i < b ==> IsDigit(e[i])
    requires a == 0 || IsOperatorChar(e[a - 1])
    requires b == |e| || IsOperatorChar(e[b])
    ensures Scan(e, a1, a, st) == Ok(State(Push(st.operands, DigitsValue(n)), st.operators))
  {
    NextSymbolIs(e, a1, b);
    assert IsDigit(e[a]) && CanTrimNum(e, a);
    assert !IsOperator(e, a) && !IsSign(e, a) && !IsLeftBracket(e, a) && !IsRightBracket(e, a);
    assert NumberAt(e, a) == DigitsValue(n);
    assert Step(e, a, st) == Ok(State(Push(st.operands, DigitsValue(n)), st.operators));
  }

  /** A whole digit run `e[a..b]`, bounded by operators or the ends, pushes its value once. */
  lemma NumeralScan(e: string, a: nat, b: nat, n: string, st: State)
    requires ValidExpression(e) && OperatorsWellFormed(st) && IsNumeral(n)
    requires b == a + |n| && b <= |e| && e[a..b] == n
    requires a == 0 || IsOperatorChar(e[a - 1])
    requires b == |e| || IsOperatorChar(e[b])
    ensures Scan(e, b, a, st) == Ok(State(Push(st.operands, DigitsValue(n)), st.operators))
  {
    forall i | a <= i < b
      ensures IsDigit(e[i])
    {
      assert e[i] == e[a..b][i - a];
    }
    var a1 := a + 1;
    InsideNumeral(e, a, a1, b, st);
    NumeralHead(e, a, a1, b, n, st);
    ScanSplitOk(e, b, a1, a, st, st);
  }

  /** A binary operator `e[p]` between two digits runs one pair step of the chain scan. */
  lemma OperatorScan(e: string, p: nat, q: nat, v: int, st: State)
    requires ValidExpression(e) && OperatorsWellFormed(st)
    requires q == p + 1 && 0 < p && q < |e| && IsOperatorChar(e[p]) && IsDigit(e[p - 1])
    ensures OperatorsWellFormed(State(Push(st.operands, v), st.operators))
    ensures Scan(e, q, p, State(Push(st.operands, v), st.operators)) == PairStep(e[p], v, st)
  {
    assert IsOperator(e, p);
  }

  /** A successful scan of the upper part hands its stacks to the lower part. */
  lemma ScanSplitOk(e: string, hi: nat, mid: nat, lo: nat, st: State, s: State)
    requires ValidExpression(e) && lo <= mid <= hi <= |e| && OperatorsWellFormed(st)
    requires Scan(e, hi, mid, st) == Ok(s)
    ensures OperatorsWellFormed(s) && Scan(e, hi, lo, st) == Scan(e, mid, lo, s)
  {
    ScanSplit(e, hi, mid, lo, st);
  }

  /** Two adjacent scans, the first successful, then the rest. */
  lemma ScanCompose(e: string, h: nat, q: nat, p: nat, st: State, pushed: State, x: Result<State, Error>)
    requires ValidExpression(e) && p <= q <= h <= |e| && OperatorsWellFormed(st)
    requires Scan(e, h, q, st) == Ok(pushed) && Scan(e, q, p, pushed) == x
    ensures x.Ok? ==> OperatorsWellFormed(x.value)
    ensures Scan(e, h, 0, st) == if x.Ok? then Scan(e, p, 0, x.value) else Err(x.error)
  {
    ScanSplitOk(e, h, q, 0, st, pushed);
    ScanSplit(e, q, p, 0, pushed);
  }

  /** An operator at `p` and the digit run `e[q..h]` after it: a numeral push, then a pair step. */
  lemma ScanPairStep(e: string, p: nat, q: nat, h: nat, n: string, st: State)
    requires ValidExpression(e) && OperatorsWellFormed(st) && IsNumeral(n)
    requires q == p + 1 && h == q + |n| && 0 < p && h <= |e|
    requires IsOperatorChar(e[p]) && IsDigit(e[p - 1]) && e[q..h] == n
    requires h == |e| || IsOperatorChar(e[h])
    ensures var x := PairStep(e[p], DigitsValue(n), st);
            Scan(e, h, 0, st) == if x.Ok? then Scan(e, p, 0, x.value) else Err(x.error)
  {
    var pushed := State(Push(st.operands, DigitsValue(n)), st.operators);
    NumeralScan(e, q, h, n, st);
    OperatorScan(e, p, q, DigitsValue(n), st);
    ScanCompose(e, h, q, p, st, pushed, PairStep(e[p], DigitsValue(n), st));
  }

  /** The scan of a spelled prefix of length `len`, bounded on the right by an operator or the end. */
  lemma {:induction false} ScanPrefix(e: string, first: string, ps: seq<(char, string)>, len: nat, st: State)
    requires ValidExpression(e) && IsNumeral(first) && ValidPairs(ps) && OperatorsWellFormed(st)
    requires len == |first + Spell(ps)| && len <= |e| && e[..len] == first + Spell(ps)
    requires len == |e| || IsOperatorChar(e[len])
    ensures Scan(e, len, 0, st) ==
              (match PairsScan(Values(ps), st)
               case Ok(s) => Ok(State(Push(s.operands, DigitsValue(first)), s.operators))
               case Err(x) => Err(x))
    decreases |ps|
  {
    if |ps| == 0 {
      assert e[0..len] == first;
      NumeralScan(e, 0, len, first, st);
    } else {
      var k := |ps| - 1;
      SpellLast(e, first, ps);
      var p := |first + Spell(ps[..k])|;
      ScanPairStep(e, p, p + 1, len, ps[k].1, st);
      ValuesPrefix(ps, k);
      match PairStep(ps[k].0, DigitsValue(ps[k].1), st)
      case Ok(next) => ScanPrefix(e, first, ps[..k], p, next);
      case Err(_) =>
    }
  }

  /** The character scan of `n0 op1 n1 ...` is the chain scan of its pairs, then the push of `n0`. */
  lemma ScanSpelled(first: string, ps: seq<(char, string)>, st: State)
    requires IsNumeral(first) && ValidPairs(ps) && OperatorsWellFormed(st)
    ensures ValidExpression(first + Spell(ps))
    ensures Scan(first + Spell(ps), |first + Spell(ps)|, 0, st) ==
              (match PairsScan(Values(ps), st)
               case Ok(s) => Ok(State(Push(s.operands, DigitsValue(first)), s.operators))
               case Err(x) => Err(x))
  {
    var e := first + Spell(ps);
    SpellShape(first, ps);
    assert e[..|e|] == e;
    ScanPrefix(e, first, ps, |e|, st);
  }
}

=== FILE: stacks.dfy ===
/**
 The linked LIFO stack of the calculator (`Stack` in src/calculator.py).
 The chain of nodes is represented by a sequence whose LAST element is the
 head node; `peek` and `pop` answer `None` on an empty stack.
 */
module Stacks {
  import opened Wrappers

  datatype Stack<T> = Stack(items: seq<T>)

  function EmptyStack<T>(): Stack<T> {
    Stack([])
  }

  predicate IsEmpty<T>(s: Stack<T>) {
    |s.items| == 0
  }

  function Size<T>(s: Stack<T>): nat {
    |s.items|
  }

  /** `push`: the new element becomes the head; everything below is kept. */
  function Push<T>(s: Stack<T>, x: T): (r: Stack<T>)
    ensures Size(r) == Size(s) + 1
    ensures r.items[Size(s)] == x
    ensures r.items[..Size(s)] == s.items
  {
    Stack(s.items + [x])
  }

  /**
   `pop`: answers the head and the stack below it, or `None` and the
   unchanged stack when it is empty. A successful pop is undone by pushing
   the popped element back.
   */
  function Pop<T>(s: Stack<T>): (r: (Option<T>, Stack<T>))
    ensures r.0.None? <==> IsEmpty(s)
    ensures r.0.None? ==> r.1 == s
    ensures r.0.Some? ==> Push(r.1, r.0.value) == s
  {
    if IsEmpty(s) then (None, s)
    else (Some(s.items[|s.items| - 1]), Stack(s.items[..|s.items| - 1]))
  }

  /** `peek`: the element `pop` would answer, without removing it. */
  function Peek<T>(s: Stack<T>): (r: Option<T>)
    ensures r == Pop(s).0
  {
    if IsEmpty(s) then None else Some(s.items[|s.items| - 1])
  }

  /** LIFO: popping right after a push answers the pushed element and restores the stack. */
  lemma PopAfterPush<T>(s: Stack<T>, x: T)
    ensures Pop(Push(s, x)) == (Some(x), s)
    ensures Peek(Push(s, x)) == Some(x)
  {
    assert Push(s, x).items[..Size(s)] == s.items;
  }

  /** On an empty stack both `peek` and `pop` answer `None` and the stack stays empty. */
  lemma EmptyPopPeek<T>(s: Stack<T>)
    requires IsEmpty(s)
    ensures Peek(s) == None && Pop(s) == (None, s)
  {
  }
}

=== FILE: traces.dfy ===
/**
 Hand-traceable evaluations of `process`: on a fresh parser, and on a parser
 reused after a call that left an operand behind. Each trace proves the stacks
 after every index of the right-to-left scan.
 */
module Traces {
  import opened Wrappers
  import opened Stacks
  import opened Lexing
  import opened Arithmetic
  import opened Reduction
  import opened Parser

  function S(operands: seq<int>, operators: seq<char>): State {
    State(Stack(operands), Stack(operators))
  }

  /** A one-digit run: `int(expression[index:ref])` is that digit's value. */
  lemma SingleDigit(e: string, i: nat)
    requires ValidExpression(e) && i < |e| && CanTrimNum(e, i)
    requires i + 1 == |e| || IsSymbolChar(e[i + 1])
    ensures NumberAt(e, i) == DigitValue(e[i])
  {
    assert NextSymbol(e, i + 1) == i + 1;
    var run := e[i..i + 1];
    assert run[..0] == [] && run[0] == e[i];
    assert DigitsValue(run) == DigitValue(e[i]);
  }

  /** `*` is reduced before the `+` on its left. */
  lemma MulBindsTighter()
    ensures Evaluate("2+3*4") == Ok(14)
  {
    MulBindsTighterTrace("2+3*4");
  }

  /** A lower priority waits for the final drain, which reduces left to right. */
  lemma MulFirstThenAdd()
    ensures Evaluate("2*3+4") == Ok(10)
  {
    MulFirstThenAddTrace("2*3+4");
  }

  /** A `(` reduces back to its `)` marker and discards it. */
  lemma BracketsGroup()
    ensures Evaluate("(2+3)*4") == Ok(20)
  {
    BracketsGroupTrace("(2+3)*4");
  }

  /** Equal priorities are not reduced early (the comparison is a strict `>`), so subtraction groups to the left. */
  lemma SubtractionLeftToRight()
    ensures Evaluate("8-3-2") == Ok(3)
  {
    SubtractionLeftToRightTrace("8-3-2");
  }

  /** A leading `-` becomes an operand -1 and a `*`. */
  lemma LeadingMinus()
    ensures Evaluate("-5+3") == Ok(-2)
  {
    LeadingMinusTrace("-5+3");
  }

  /** Division truncates toward zero: -7/2 is -3, not -4. */
  lemma LeadingMinusTruncates()
    ensures Evaluate("-7/2") == Ok(-3)
  {
    LeadingMinusTruncatesTrace("-7/2");
  }

  /** An operator at the last index is neither an operator nor a sign, so it is skipped. */
  lemma TrailingOperatorIgnored()
    ensures Evaluate("2+") == Ok(2)
  {
    TrailingOperatorIgnoredTrace("2+");
  }

  /** An unmatched `)` marker reaches `_calculate` in the drain and takes the division path. */
  lemma StrayRightBracketDivides()
    ensures Evaluate("6)3") == Ok(2)
  {
    StrayRightBracketDividesTrace("6)3");
  }

  /**
   A sign after `/` does not negate the divisor: `-1` and `*` are stacked
   below the dividend, so the drain computes (8 / -1) * 2 = -16.
   */
  lemma SignAfterDivision()
    ensures Evaluate("8/-2") == Ok(-16)
  {
    SignAfterDivisionTrace("8/-2");
  }

  /** Adjacent groups are not multiplied: the left group is the result and the right one stays on the operand stack. */
  lemma AdjacentGroupsLeaveOperand()
    ensures Run("(2)(3)", Initial()) == Ok((2, S([3], "")))
  {
    AdjacentGroupsLeaveOperandTrace("(2)(3)");
  }

  /** A zero divisor fails in the final drain. */
  lemma DivisionByZeroFails()
    ensures Evaluate("5/0") == Err(DivisionByZero)
  {
    DivisionByZeroFailsTrace("5/0");
  }

  /** Nothing to push: the final pop finds no result. */
  lemma EmptyExpressionFails()
    ensures Evaluate("") == Err(NoResult)
  {
    EmptyExpressionFailsTrace("");
  }

  /** A lone operator is neither an operator nor a sign: the final pop finds no result. */
  lemma LoneOperatorFails()
    ensures Evaluate("+") == Err(NoResult)
  {
    LoneOperatorFailsTrace("+");
  }

  /** An unmatched `(` runs the operand stack dry inside `_operate`. */
  lemma LoneLeftBracketFails()
    ensures Evaluate("(") == Err(LeftOperandMissing)
  {
    LoneLeftBracketFailsTrace("(");
  }

  /** The operand left by a previous call is the answer of the next call on the same parser. */
  lemma LeftoverAnsweredNext()
    ensures Run("", S([3], "")) == Ok((3, Initial()))
  {
    LeftoverAnsweredNextTrace("");
  }

  // Per-index steps of the traces above, one lemma each so that every proof stays small.

  lemma MulBindsTighterStep4(e: string)
    requires e == "2+3*4"
    ensures Step(e, 4, Initial()) == Ok(S([4], ""))
  {
    assert ValidExpression(e);
    SingleDigit(e, 4);
  }

  lemma MulBindsTighterStep3(e: string)
    requires e == "2+3*4"
    ensures Step(e, 3, S([4], "")) == Ok(S([4], "*"))
  {
    assert ValidExpression(e);
  }

  lemma MulBindsTighterStep2(e: string)
    requires e == "2+3*4"
    ensures Step(e, 2, S([4], "*")) == Ok(S([4, 3], "*"))
  {
    assert ValidExpression(e);
    SingleDigit(e, 2);
    assert [4] + [3] == [4, 3];
  }

  lemma MulBindsTighterStep1(e: string)
    requires e == "2+3*4"
    ensures Step(e, 1, S([4, 3], "*")) == Ok(S([12], "+"))
  {
    assert ValidExpression(e);
    assert Operate(S([4, 3], "*")) == Ok(S([12], ""));
  }

  lemma MulBindsTighterStep0(e: string)
    requires e == "2+3*4"
    ensures Step(e, 0, S([12], "+")) == Ok(S([12, 2], "+"))
  {
    assert ValidExpression(e);
    SingleDigit(e, 0);
    assert [12] + [2] == [12, 2];
  }

  lemma MulBindsTighterDrain()
    ensures Drain(S([12, 2], "+")) == Ok(S([14], ""))
  {
    assert Operate(S([12, 2], "+")) == Ok(S([14], ""));
  }

  lemma MulBindsTighterTrace(e: string)
    requires e == "2+3*4"
    ensures Run(e, Initial()) == Ok((14, Initial()))
  {
    assert ValidExpression(e);
    MulBindsTighterStep4(e);
    MulBindsTighterStep3(e);
    MulBindsTighterStep2(e);
    MulBindsTighterStep1(e);
    MulBindsTighterStep0(e);
    assert Scan(e, 0, 0, S([12, 2], "+")) == Ok(S([12, 2], "+"));
    assert Scan(e, 1, 0, S([12], "+")) == Ok(S([12, 2], "+"));
    assert Scan(e, 2, 0, S([4, 3], "*")) == Ok(S([12, 2], "+"));
    assert Scan(e, 3, 0, S([4], "*")) == Ok(S([12, 2], "+"));
    assert Scan(e, 4, 0, S([4], "")) == Ok(S([12, 2], "+"));
    assert Scan(e, 5, 0, Initial()) == Ok(S([12, 2], "+"));
    MulBindsTighterDrain();
    assert Drain(S([12, 2], "+")) == Ok(S([14], ""));
  }

  lemma MulFirstThenAddStep4(e: string)
    requires e == "2*3+4"
    ensures Step(e, 4, Initial()) == Ok(S([4], ""))
  {
    assert ValidExpression(e);
    SingleDigit(e, 4);
  }

  lemma MulFirstThenAddStep3(e: string)
    requires e == "2*3+4"
    ensures Step(e, 3, S([4], "")) == Ok(S([4], "+"))
  {
    assert ValidExpression(e);
  }

  lemma MulFirstThenAddStep2(e: string)
    requires e == "2*3+4"
    ensures Step(e, 2, S([4], "+")) == Ok(S([4, 3], "+"))
  {
    assert ValidExpression(e);
    SingleDigit(e, 2);
    assert [4] + [3] == [4, 3];
  }

  lemma MulFirstThenAddStep1(e: string)
    requires e == "2*3+4"
    ensures Step(e, 1, S([4, 3], "+")) == Ok(S([4, 3], "+*"))
  {
    assert ValidExpression(e);
    assert "+" + "*" == "+*";
  }

  lemma MulFirstThenAddStep0(e: string)
    requires e == "2*3+4"
    ensures Step(e, 0, S([4, 3], "+*")) == Ok(S([4, 3, 2], "+*"))
  {
    assert ValidExpression(e);
    SingleDigit(e, 0);
    assert [4, 3] + [2] == [4, 3, 2];
  }

  lemma MulFirstThenAddDrain()
    ensures Drain(S([4, 3, 2], "+*")) == Ok(S([10], ""))
  {
    assert [4, 3, 2][..1] + [6] == [4, 6];
    assert "+*"[..1] == "+";
    assert Operate(S([4, 3, 2], "+*")) == Ok(S([4, 6], "+"));
    assert Operate(S([4, 6], "+")) == Ok(S([10], ""));
  }

  lemma MulFirstThenAddTrace(e: string)
    requires e == "2*3+4"
    ensures Run(e, Initial()) == Ok((10, Initial()))
  {
    assert ValidExpression(e);
    MulFirstThenAddStep4(e);
    MulFirstThenAddStep3(e);
    MulFirstThenAddStep2(e);
    MulFirstThenAddStep1(e);
    MulFirstThenAddStep0(e);
    assert Scan(e, 0, 0, S([4, 3, 2], "+*")) == Ok(S([4, 3, 2], "+*"));
    assert Scan(e, 1, 0, S([4, 3], "+*")) == Ok(S([4, 3, 2], "+*"));
    assert Scan(e, 2, 0, S([4, 3], "+")) == Ok(S([4, 3, 2], "+*"));
    assert Scan(e, 3, 0, S([4], "+")) == Ok(S([4, 3, 2], "+*"));
    assert Scan(e, 4, 0, S([4], "")) == Ok(S([4, 3, 2], "+*"));
    assert Scan(e, 5, 0, Initial()) == Ok(S([4, 3, 2], "+*"));
    MulFirstThenAddDrain();
    assert Drain(S([4, 3, 2], "+*")) == Ok(S([10], ""));
  }

  lemma BracketsGroupStep6(e: string)
    requires e == "(2+3)*4"
    ensures Step(e, 6, Initial()) == Ok(S([4], ""))
  {
    assert ValidExpression(e);
    SingleDigit(e, 6);
  }

  lemma BracketsGroupStep5(e: string)
    requires e == "(2+3)*4"
    ensures Step(e, 5, S([4], "")) == Ok(S([4], "*"))
  {
    assert ValidExpression(e);
  }

  lemma BracketsGroupStep4(e: string)
    requires e == "(2+3)*4"
    ensures Step(e, 4, S([4], "*")) == Ok(S([4], "*)"))
  {
    assert ValidExpression(e);
    assert e[4] == RightBracket && !IsOperatorChar(e[4]) && !IsDigit(e[4]);
    assert "*" + ")" == "*)";
  }

  lemma BracketsGroupStep3(e: string)
    requires e == "(2+3)*4"
    ensures Step(e, 3, S([4], "*)")) == Ok(S([4, 3], "*)"))
  {
    assert ValidExpression(e);
    SingleDigit(e, 3);
    assert [4] + [3] == [4, 3];
  }

  lemma BracketsGroupStep2(e: string)
    requires e == "(2+3)*4"
    ensures Step(e, 2, S([4, 3], "*)")) == Ok(S([4, 3], "*)+"))
  {
    assert ValidExpression(e);
    assert "*)" + "+" == "*)+";
  }

  lemma BracketsGroupStep1(e: string)
    requires e == "(2+3)*4"
    ensures Step(e, 1, S([4, 3], "*)+")) == Ok(S([4, 3, 2], "*)+"))
  {
    assert ValidExpression(e);
    SingleDigit(e, 1);
    assert [4, 3] + [2] == [4, 3, 2];
  }

  lemma BracketsGroupStep0(e: string)
    requires e == "(2+3)*4"
    ensures Step(e, 0, S([4, 3, 2], "*)+")) == Ok(S([4, 5], "*"))
  {
    assert ValidExpression(e);
    assert [4, 3, 2][..1] + [5] == [4, 5];
    assert "*)+"[..2] == "*)";
    assert Operate(S([4, 3, 2], "*)+")) == Ok(S([4, 5], "*)"));
    assert "*)"[..1] == "*";
  }

  lemma BracketsGroupDrain()
    ensures Drain(S([4, 5], "*")) == Ok(S([20], ""))
  {
    assert Operate(S([4, 5], "*")) == Ok(S([20], ""));
  }

  lemma BracketsGroupTrace(e: string)
    requires e == "(2+3)*4"
    ensures Run(e, Initial()) == Ok((20, Initial()))
  {
    assert ValidExpression(e);
    BracketsGroupStep6(e);
    BracketsGroupStep5(e);
    BracketsGroupStep4(e);
    BracketsGroupStep3(e);
    BracketsGroupStep2(e);
    BracketsGroupStep1(e);
    BracketsGroupStep0(e);
    assert Scan(e, 0, 0, S([4, 5], "*")) == Ok(S([4, 5], "*"));
    assert Scan(e, 1, 0, S([4, 3, 2], "*)+")) == Ok(S([4, 5], "*"));
    assert Scan(e, 2, 0, S([4, 3], "*)+")) == Ok(S([4, 5], "*"));
    assert Scan(e, 3, 0, S([4, 3], "*)")) == Ok(S([4, 5], "*"));
    assert Scan(e, 4, 0, S([4], "*)")) == Ok(S([4, 5], "*"));
    assert Scan(e, 5, 0, S([4], "*")) == Ok(S([4, 5], "*"));
    assert Scan(e, 6, 0, S([4], "")) == Ok(S([4, 5], "*"));
    assert Scan(e, 7, 0, Initial()) == Ok(S([4, 5], "*"));
    BracketsGroupDrain();
    assert Drain(S([4, 5], "*")) == Ok(S([20], ""));
  }

  lemma SubtractionLeftToRightStep4(e: string)
    requires e == "8-3-2"
    ensures Step(e, 4, Initial()) == Ok(S([2], ""))
  {
    assert ValidExpression(e);
    SingleDigit(e, 4);
  }

  lemma SubtractionLeftToRightStep3(e: string)
    requires e == "8-3-2"
    ensures Step(e, 3, S([2], "")) == Ok(S([2], "-"))
  {
    assert ValidExpression(e);
  }

  lemma SubtractionLeftToRightStep2(e: string)
    requires e == "8-3-2"
    ensures Step(e, 2, S([2], "-")) == Ok(S([2, 3], "-"))
  {
    assert ValidExpression(e);
    SingleDigit(e, 2);
    assert [2] + [3] == [2, 3];
  }

  lemma SubtractionLeftToRightStep1(e: string)
    requires e == "8-3-2"
    ensures Step(e, 1, S([2, 3], "-")) == Ok(S([2, 3], "--"))
  {
    assert ValidExpression(e);
    assert "-" + "-" == "--";
  }

  lemma SubtractionLeftToRightStep0(e: string)
    requires e == "8-3-2"
    ensures Step(e, 0, S([2, 3], "--")) == Ok(S([2, 3, 8], "--"))
  {
    assert ValidExpression(e);
    SingleDigit(e, 0);
    assert [2, 3] + [8] == [2, 3, 8];
  }

  lemma SubtractionLeftToRightDrain()
    ensures Drain(S([2, 3, 8], "--")) == Ok(S([3], ""))
  {
    assert [2, 3, 8][..1] + [5] == [2, 5];
    assert "--"[..1] == "-";
    assert Operate(S([2, 3, 8], "--")) == Ok(S([2, 5], "-"));
    assert Operate(S([2, 5], "-")) == Ok(S([3], ""));
  }

  lemma SubtractionLeftToRightTrace(e: string)
    requires e == "8-3-2"
    ensures Run(e, Initial()) == Ok((3, Initial()))
  {
    assert ValidExpression(e);
    SubtractionLeftToRightStep4(e);
    SubtractionLeftToRightStep3(e);
    SubtractionLeftToRightStep2(e);
    SubtractionLeftToRightStep1(e);
    SubtractionLeftToRightStep0(e);
    assert Scan(e, 0, 0, S([2, 3, 8], "--")) == Ok(S([2, 3, 8], "--"));
    assert Scan(e, 1, 0, S([2, 3], "--")) == Ok(S([2, 3, 8], "--"));
    assert Scan(e, 2, 0, S([2, 3], "-")) == Ok(S([2, 3, 8], "--"));
    assert Scan(e, 3, 0, S([2], "-")) == Ok(S([2, 3, 8], "--"));
    assert Scan(e, 4, 0, S([2], "")) == Ok(S([2, 3, 8], "--"));
    assert Scan(e, 5, 0, Initial()) == Ok(S([2, 3, 8], "--"));
    SubtractionLeftToRightDrain();
    assert Drain(S([2, 3, 8], "--")) == Ok(S([3], ""));
  }

  lemma LeadingMinusStep3(e: string)
    requires e == "-5+3"
    ensures Step(e, 3, Initial()) == Ok(S([3], ""))
  {
    assert ValidExpression(e);
    SingleDigit(e, 3);
  }

  lemma LeadingMinusStep2(e: string)
    requires e == "-5+3"
    ensures Step(e, 2, S([3], "")) == Ok(S([3], "+"))
  {
    assert ValidExpression(e);
  }

  lemma LeadingMinusStep1(e: string)
    requires e == "-5+3"
    ensures Step(e, 1, S([3], "+")) == Ok(S([3, 5], "+"))
  {
    assert ValidExpression(e);
    SingleDigit(e, 1);
    assert [3] + [5] == [3, 5];
  }

  lemma LeadingMinusStep0(e: string)
    requires e == "-5+3"
    ensures Step(e, 0, S([3, 5], "+")) == Ok(S([3, 5, -1], "+*"))
  {
    assert ValidExpression(e);
    assert [3, 5] + [-1] == [3, 5, -1];
    assert "+" + "*" == "+*";
  }

  lemma LeadingMinusDrain()
    ensures Drain(S([3, 5, -1], "+*")) == Ok(S([-2], ""))
  {
    assert [3, 5, -1][..1] + [-5] == [3, -5];
    assert "+*"[..1] == "+";
    assert Operate(S([3, 5, -1], "+*")) == Ok(S([3, -5], "+"));
    assert Operate(S([3, -5], "+")) == Ok(S([-2], ""));
  }

  lemma LeadingMinusTrace(e: string)
    requires e == "-5+3"
    ensures Run(e, Initial()) == Ok((-2, Initial()))
  {
    assert ValidExpression(e);
    LeadingMinusStep3(e);
    LeadingMinusStep2(e);
    LeadingMinusStep1(e);
    LeadingMinusStep0(e);
    assert Scan(e, 0, 0, S([3, 5, -1], "+*")) == Ok(S([3, 5, -1], "+*"));
    assert Scan(e, 1, 0, S([3, 5], "+")) == Ok(S([3, 5, -1], "+*"));
    assert Scan(e, 2, 0, S([3], "+")) == Ok(S([3, 5, -1], "+*"));
    assert Scan(e, 3, 0, S([3], "")) == Ok(S([3, 5, -1], "+*"));
    assert Scan(e, 4, 0, Initial()) == Ok(S([3, 5, -1], "+*"));
    LeadingMinusDrain();
    assert Drain(S([3, 5, -1], "+*")) == Ok(S([-2], ""));
  }

  lemma LeadingMinusTruncatesStep3(e: string)
    requires e == "-7/2"
    ensures Step(e, 3, Initial()) == Ok(S([2], ""))
  {
    assert ValidExpression(e);
    SingleDigit(e, 3);
  }

  lemma LeadingMinusTruncatesStep2(e: string)
    requires e == "-7/2"
    ensures Step(e, 2, S([2], "")) == Ok(S([2], "/"))
  {
    assert ValidExpression(e);
  }

  lemma LeadingMinusTruncatesStep1(e: string)
    requires e == "-7/2"
    ensures Step(e, 1, S([2], "/")) == Ok(S([2, 7], "/"))
  {
    assert ValidExpression(e);
    SingleDigit(e, 1);
    assert [2] + [7] == [2, 7];
  }

  lemma LeadingMinusTruncatesStep0(e: string)
    requires e == "-7/2"
    ensures Step(e, 0, S([2, 7], "/")) == Ok(S([2, 7, -1], "/*"))
  {
    assert ValidExpression(e);
    assert [2, 7] + [-1] == [2, 7, -1];
    assert "/" + "*" == "/*";
  }

  lemma LeadingMinusTruncatesDrain()
    ensures Drain(S([2, 7, -1], "/*")) == Ok(S([-3], ""))
  {
    QuotTruncates();
    assert Calculate(-1, 7, Times) == Ok(-7);
    assert Calculate(-7, 2, Divide) == Ok(-3);
    assert [2, 7, -1][..1] + [-7] == [2, -7];
    assert "/*"[..1] == "/";
    assert Operate(S([2, 7, -1], "/*")) == Ok(S([2, -7], "/"));
    assert [2, -7][..0] + [-3] == [-3];
    assert Operate(S([2, -7], "/")) == Ok(S([-3], ""));
  }

  lemma LeadingMinusTruncatesTrace(e: string)
    requires e == "-7/2"
    ensures Run(e, Initial()) == Ok((-3, Initial()))
  {
    assert ValidExpression(e);
    LeadingMinusTruncatesStep3(e);
    LeadingMinusTruncatesStep2(e);
    LeadingMinusTruncatesStep1(e);
    LeadingMinusTruncatesStep0(e);
    assert Scan(e, 0, 0, S([2, 7, -1], "/*")) == Ok(S([2, 7, -1], "/*"));
    assert Scan(e, 1, 0, S([2, 7], "/")) == Ok(S([2, 7, -1], "/*"));
    assert Scan(e, 2, 0, S([2], "/")) == Ok(S([2, 7, -1], "/*"));
    assert Scan(e, 3, 0, S([2], "")) == Ok(S([2, 7, -1], "/*"));
    assert Scan(e, 4, 0, Initial()) == Ok(S([2, 7, -1], "/*"));
    LeadingMinusTruncatesDrain();
    assert Drain(S([2, 7, -1], "/*")) == Ok(S([-3], ""));
  }

  lemma TrailingOperatorIgnoredStep1(e: string)
    requires e == "2+"
    ensures Step(e, 1, Initial()) == Ok(Initial())
  {
    assert ValidExpression(e);
  }

  lemma TrailingOperatorIgnoredStep0(e: string)
    requires e == "2+"
    ensures Step(e, 0, Initial()) == Ok(S([2], ""))
  {
    assert ValidExpression(e);
    SingleDigit(e, 0);
  }

  lemma TrailingOperatorIgnoredTrace(e: string)
    requires e == "2+"
    ensures Run(e, Initial()) == Ok((2, Initial()))
  {
    assert ValidExpression(e);
    TrailingOperatorIgnoredStep1(e);
    TrailingOperatorIgnoredStep0(e);
    assert Scan(e, 0, 0, S([2], "")) == Ok(S([2], ""));
    assert Scan(e, 1, 0, Initial()) == Ok(S([2], ""));
    assert Scan(e, 2, 0, Initial()) == Ok(S([2], ""));
    assert Drain(S([2], "")) == Ok(S([2], ""));
  }

  lemma StrayRightBracketDividesStep2(e: string)
    requires e == "6)3"
    ensures Step(e, 2, Initial()) == Ok(S([3], ""))
  {
    assert ValidExpression(e);
    SingleDigit(e, 2);
  }

  lemma StrayRightBracketDividesStep1(e: string)
    requires e == "6)3"
    ensures Step(e, 1, S([3], "")) == Ok(S([3], ")"))
  {
    assert ValidExpression(e);
  }

  lemma StrayRightBracketDividesStep0(e: string)
    requires e == "6)3"
    ensures Step(e, 0, S([3], ")")) == Ok(S([3, 6], ")"))
  {
    assert ValidExpression(e);
    SingleDigit(e, 0);
    assert [3] + [6] == [3, 6];
  }

  lemma StrayRightBracketDividesDrain()
    ensures Drain(S([3, 6], ")")) == Ok(S([2], ""))
  {
    QuotUnique(6, 3, 2);
    assert Calculate(6, 3, RightBracket) == Ok(2);
    assert [3, 6][..0] + [2] == [2];
    assert Operate(S([3, 6], ")")) == Ok(S([2], ""));
  }

  lemma StrayRightBracketDividesTrace(e: string)
    requires e == "6)3"
    ensures Run(e, Initial()) == Ok((2, Initial()))
  {
    assert ValidExpression(e);
    StrayRightBracketDividesStep2(e);
    StrayRightBracketDividesStep1(e);
    StrayRightBracketDividesStep0(e);
    assert Scan(e, 0, 0, S([3, 6], ")")) == Ok(S([3, 6], ")"));
    assert Scan(e, 1, 0, S([3], ")")) == Ok(S([3, 6], ")"));
    assert Scan(e, 2, 0, S([3], "")) == Ok(S([3, 6], ")"));
    assert Scan(e, 3, 0, Initial()) == Ok(S([3, 6], ")"));
    StrayRightBracketDividesDrain();
    assert Drain(S([3, 6], ")")) == Ok(S([2], ""));
  }

  lemma SignAfterDivisionStep3(e: string)
    requires e == "8/-2"
    ensures Step(e, 3, Initial()) == Ok(S([2], ""))
  {
    assert ValidExpression(e);
    SingleDigit(e, 3);
  }

  lemma SignAfterDivisionStep2(e: string)
    requires e == "8/-2"
    ensures Step(e, 2, S([2], "")) == Ok(S([2, -1], "*"))
  {
    assert ValidExpression(e);
    assert [2] + [-1] == [2, -1];
  }

  lemma SignAfterDivisionStep1(e: string)
    requires e == "8/-2"
    ensures Step(e, 1, S([2, -1], "*")) == Ok(S([2, -1], "*/"))
  {
    assert ValidExpression(e);
    assert IsOperator(e, 1) && e[1] == Divide;
    ReduceHigherStops(S([2, -1], "*"), Divide);
    assert "*" + "/" == "*/";
  }

  lemma SignAfterDivisionStep0(e: string)
    requires e == "8/-2"
    ensures Step(e, 0, S([2, -1], "*/")) == Ok(S([2, -1, 8], "*/"))
  {
    assert ValidExpression(e);
    SingleDigit(e, 0);
    assert [2, -1] + [8] == [2, -1, 8];
  }

  lemma SignAfterDivisionDrain()
    ensures Drain(S([2, -1, 8], "*/")) == Ok(S([-16], ""))
  {
    assert [2, -1, 8][..1] + [-8] == [2, -8];
    assert "*/"[..1] == "*";
    assert Operate(S([2, -1, 8], "*/")) == Ok(S([2, -8], "*"));
    assert Operate(S([2, -8], "*")) == Ok(S([-16], ""));
  }

  lemma SignAfterDivisionTrace(e: string)
    requires e == "8/-2"
    ensures Run(e, Initial()) == Ok((-16, Initial()))
  {
    assert ValidExpression(e);
    SignAfterDivisionStep3(e);
    SignAfterDivisionStep2(e);
    SignAfterDivisionStep1(e);
    SignAfterDivisionStep0(e);
    assert Scan(e, 0, 0, S([2, -1, 8], "*/")) == Ok(S([2, -1, 8], "*/"));
    assert Scan(e, 1, 0, S([2, -1], "*/")) == Ok(S([2, -1, 8], "*/"));
    assert Scan(e, 2, 0, S([2, -1], "*")) == Ok(S([2, -1, 8], "*/"));
    assert Scan(e, 3, 0, S([2], "")) == Ok(S([2, -1, 8], "*/"));
    assert Scan(e, 4, 0, Initial()) == Ok(S([2, -1, 8], "*/"));
    SignAfterDivisionDrain();
    assert Drain(S([2, -1, 8], "*/")) == Ok(S([-16], ""));
  }

  lemma AdjacentGroupsLeaveOperandStep5(e: string)
    requires e == "(2)(3)"
    ensures Step(e, 5, Initial()) == Ok(S([], ")"))
  {
    assert ValidExpression(e);
  }

  lemma AdjacentGroupsLeaveOperandStep4(e: string)
    requires e == "(2)(3)"
    ensures Step(e, 4, S([], ")")) == Ok(S([3], ")"))
  {
    assert ValidExpression(e);
    SingleDigit(e, 4);
  }

  lemma AdjacentGroupsLeaveOperandStep3(e: string)
    requires e == "(2)(3)"
    ensures Step(e, 3, S([3], ")")) == Ok(S([3], ""))
  {
    assert ValidExpression(e);
  }

  lemma AdjacentGroupsLeaveOperandStep2(e: string)
    requires e == "(2)(3)"
    ensures Step(e, 2, S([3], "")) == Ok(S([3], ")"))
  {
    assert ValidExpression(e);
  }

  lemma AdjacentGroupsLeaveOperandStep1(e: string)
    requires e == "(2)(3)"
    ensures Step(e, 1, S([3], ")")) == Ok(S([3, 2], ")"))
  {
    assert ValidExpression(e);
    SingleDigit(e, 1);
    assert [3] + [2] == [3, 2];
  }

  lemma AdjacentGroupsLeaveOperandStep0(e: string)
    requires e == "(2)(3)"
    ensures Step(e, 0, S([3, 2], ")")) == Ok(S([3, 2], ""))
  {
    assert ValidExpression(e);
  }

  lemma AdjacentGroupsLeaveOperandTrace(e: string)
    requires e == "(2)(3)"
    ensures Run(e, Initial()) == Ok((2, S([3], "")))
  {
    assert ValidExpression(e);
    AdjacentGroupsLeaveOperandStep5(e);
    AdjacentGroupsLeaveOperandStep4(e);
    AdjacentGroupsLeaveOperandStep3(e);
    AdjacentGroupsLeaveOperandStep2(e);
    AdjacentGroupsLeaveOperandStep1(e);
    AdjacentGroupsLeaveOperandStep0(e);
    assert Scan(e, 0, 0, S([3, 2], "")) == Ok(S([3, 2], ""));
    assert Scan(e, 1, 0, S([3, 2], ")")) == Ok(S([3, 2], ""));
    assert Scan(e, 2, 0, S([3], ")")) == Ok(S([3, 2], ""));
    assert Scan(e, 3, 0, S([3], "")) == Ok(S([3, 2], ""));
    assert Scan(e, 4, 0, S([3], ")")) == Ok(S([3, 2], ""));
    assert Scan(e, 5, 0, S([], ")")) == Ok(S([3, 2], ""));
    assert Scan(e, 6, 0, Initial()) == Ok(S([3, 2], ""));
    assert Drain(S([3, 2], "")) == Ok(S([3, 2], ""));
    assert [3, 2][..1] == [3];
  }

  lemma DivisionByZeroFailsStep2(e: string)
    requires e == "5/0"
    ensures Step(e, 2, Initial()) == Ok(S([0], ""))
  {
    assert ValidExpression(e);
    SingleDigit(e, 2);
  }

  lemma DivisionByZeroFailsStep1(e: string)
    requires e == "5/0"
    ensures Step(e, 1, S([0], "")) == Ok(S([0], "/"))
  {
    assert ValidExpression(e);
  }

  lemma DivisionByZeroFailsStep0(e: string)
    requires e == "5/0"
    ensures Step(e, 0, S([0], "/")) == Ok(S([0, 5], "/"))
  {
    assert ValidExpression(e);
    SingleDigit(e, 0);
    assert [0] + [5] == [0, 5];
  }

  lemma DivisionByZeroFailsDrain()
    ensures Drain(S([0, 5], "/")) == Err(DivisionByZero)
  {
  }

  lemma DivisionByZeroFailsTrace(e: string)
    requires e == "5/0"
    ensures Run(e, Initial()) == Err(DivisionByZero)
  {
    assert ValidExpression(e);
    DivisionByZeroFailsStep2(e);
    DivisionByZeroFailsStep1(e);
    DivisionByZeroFailsStep0(e);
    assert Scan(e, 0, 0, S([0, 5], "/")) == Ok(S([0, 5], "/"));
    assert Scan(e, 1, 0, S([0], "/")) == Ok(S([0, 5], "/"));
    assert Scan(e, 2, 0, S([0], "")) == Ok(S([0, 5], "/"));
    assert Scan(e, 3, 0, Initial()) == Ok(S([0, 5], "/"));
    DivisionByZeroFailsDrain();
    assert Drain(S([0, 5], "/")) == Err(DivisionByZero);
  }

  lemma EmptyExpressionFailsTrace(e: string)
    requires e == ""
    ensures Run(e, Initial()) == Err(NoResult)
  {
    assert ValidExpression(e);
    assert Scan(e, 0, 0, Initial()) == Ok(Initial());
    assert Drain(Initial()) == Ok(Initial());
  }

  lemma LoneOperatorFailsStep0(e: string)
    requires e == "+"
    ensures Step(e, 0, Initial()) == Ok(Initial())
  {
    assert ValidExpression(e);
  }

  lemma LoneOperatorFailsTrace(e: string)
    requires e == "+"
    ensures Run(e, Initial()) == Err(NoResult)
  {
    assert ValidExpression(e);
    LoneOperatorFailsStep0(e);
    assert Scan(e, 0, 0, Initial()) == Ok(Initial());
    assert Scan(e, 1, 0, Initial()) == Ok(Initial());
    assert Drain(Initial()) == Ok(Initial());
  }

  lemma LoneLeftBracketFailsStep0(e: string)
    requires e == "("
    ensures Step(e, 0, Initial()) == Err(LeftOperandMissing)
  {
    assert ValidExpression(e);
  }

  lemma LoneLeftBracketFailsTrace(e: string)
    requires e == "("
    ensures Run(e, Initial()) == Err(LeftOperandMissing)
  {
    assert ValidExpression(e);
    LoneLeftBracketFailsStep0(e);
    assert Scan(e, 1, 0, Initial()) == Err(LeftOperandMissing);
  }

  lemma LeftoverAnsweredNextTrace(e: string)
    requires e == ""
    ensures Run(e, S([3], "")) == Ok((3, Initial()))
  {
    assert ValidExpression(e);
    assert Scan(e, 0, 0, S([3], "")) == Ok(S([3], ""));
    assert Drain(S([3], "")) == Ok(S([3], ""));
  }
}

=== FILE: wrappers.dfy ===
/** Failure-compatible result type used for the evaluator's error exits. */
module Wrappers {

  datatype Option<+T> = None | Some(value: T)

  /** Either a value or the error that stopped the computation. */
  datatype Result<+T, +E> = Ok(value: T) | Err(error: E) {

    predicate IsFailure() {
      Err?
    }

    function PropagateFailure<U>(): Result<U, E>
      requires Err?
    {
      Err(error)
    }

    function Extract(): T
      requires Ok?
    {
      value
    }
  }
}
